=== FILE: README.md ===
# TFT-Stat-Tool aggregation core in Dafny

This project models the backend pipeline of TFT-Stat-Tool and proves properties of it. The pipeline turns one player's fetched Teamfight Tactics matches into placement statistics:

- **Trait analysis** (`analysis.py`). It finds the player in each match by an inline `puuid` search. Any unreadable match fails the whole run. Traits that appear more than ten times are ranked by top-four rate and by bottom-four rate, ten rows each.
- **Item and augment analyses** (`item_analysis.py`, `augment_analysis.py`). Both share one normaliser, `Normaliser.Collect`:
  - it finds the player by position in `metadata.participants`;
  - it pushes `set_number` first and pops it when the match fails;
  - it skips unreadable matches while keeping the columns aligned.
  After that come the "fewer than three matches" checks and the set-14 filter. The values are then counted, filtered by `> 10` (items, one count per unit slot) or `> 1` (augments), tallied as top four (placement ≤ 4) or bottom four, and ranked. Items are tallied slot by slot over `filter_items`; `ItemAnalysis.FlattenFilterItems` proves this equals tallying the flat filtered item row.
- **Unit report** (`unit_analysis.py`).
  - Each match is exploded into one row per fielded unit, with exactly three item slots.
  - For a named unit, the report holds:
    - its best 1–3 item combinations (seen at least three times, lowest mean placement first);
    - its best synergy traits, after `TFT14_` is stripped and the unit's native traits are dropped. The native traits are found by a depth-first search of the Community Dragon JSON (`CDragon.Find`).
  - Without a name, it reports on the ten most fielded units that have at least three rows.

## How the model is built

- **Python exceptions** become `Result` failures, one `Records.Failure` constructor per cause.
- **JSON fields read with `[...]`** are `Option`s, so a missing field is the failure path rather than a precondition.
- **Counts and rankings:**
  - Counters and `defaultdict` tallies are specified by recursive occurrence counts (`Counting`).
  - The tally loops are methods proved equal to those counts.
  - Rankings are specified by `Aggregate.IsRanking` and `GroupRanking.IsTopGroups`. Each says the list holds at most `n` rows, is sorted, has distinct keys and contains each key's true figures; it also says no left-out key beats a kept row, and that keys are left out only when the list is full.
- **Rates and means** are `real`. The order among equal rates or means is left open, because pandas' default sort is not stable.

## Where the specification and the code disagree (the model follows the code)

- **Trait counting.** The trait analysis counts every appearance of a trait in a match's trait list (a `Counter` over the flattened lists); it does not deduplicate per match. `Aggregate.StatFor` counts each occurrence.
- **Threshold.** The thresholds are strict: `count > 10` and `count > 1`, not "10 or more". See `Counting.Frequent`.
- **Unit with too few games.** Such a unit yields an error dictionary carrying `games_found`. It is not a raised exception: `UnitAnalysis.NotEnoughGames`.
- **No frequent traits.** In the trait analysis, an empty valid set makes `sort_values` raise on a frame without columns. It is modelled as the same `NoFrequentValues` failure that the item and augment analyses raise explicitly.
- **`TFT14_` removal.** The prefix is removed by one left-to-right `str.replace` pass (`Text.RemoveAll`). A name such as `TFTTFT14_14_` therefore still contains the prefix afterwards, exactly as in Python.

## Model

| member | source | states |
|---|---|---|
| TraitAnalysis.LocateInline | tft_backend/analysis.py:34 | the participant found carries the player's id; a failure is either "player not in match" or a malformed match |
| TraitAnalysis.LocateInlineFinds | tft_backend/analysis.py:34 | the search succeeds iff some participant carries the player's id and every participant before it has an id; it then returns the first participant with the player's id |
| TraitAnalysis.LocateInlineAbsent | tft_backend/analysis.py:34 | the player is reported missing iff every participant has an id and none is the player's (a participant without `puuid` met first raises instead) |
| TraitAnalysis.ReadInline | tft_backend/analysis.py:33-36 | one match's placement and trait names; it succeeds iff the match has participants, the player is located among them, and that participant has a placement and traits that all carry a name; a missing player (`StopIteration`) or a participant without `puuid` met first gives the locate error, and every other missing field gives MalformedMatch (`KeyError`) |
| TraitAnalysis.FirstUnreadableUnique | tft_backend/analysis.py:32-36 | the first unreadable match is unique, so the error the loop stops with is determined |
| TraitAnalysis.CollectInline | tft_backend/analysis.py:32-36 | succeeds iff every match is readable, then the columns are the per-match reads in order; otherwise the error is that of the first unreadable match, with every earlier match readable (nothing is skipped) |
| TraitAnalysis.Run | tft_backend/analysis.py:28-69 | fails iff some match is unreadable (with the first unreadable match's error) or no trait appears more than 10 times, in which case the error is NoFrequentValues; otherwise both lists are rankings (IsRanking) of the traits counted more than 10 times, by top-4 and bottom-4 rate |
| TraitAnalysis.AbsentPlayerFails | tft_backend/analysis.py:34 | a match without the player makes the whole analysis fail |
| Counting.TopPlusBottom | tft_backend/analysis.py:48-55 | every appearance is counted once as top four or bottom four: top + bottom == total occurrences |
| Counting.OccurrencesPositive | tft_backend/analysis.py:40 | a value that appears in some row has a positive count |
| Counting.Frequent | tft_backend/analysis.py:40-41 | a value is valid iff its raw appearance count is strictly above the threshold |
| Counting.KeepValid | tft_backend/analysis.py:42 | the filtered row is an in-order sublist of the row holding only valid values, with every valid value's count unchanged and every other count zero |
| Counting.KeepValidRowsCounts | tft_backend/analysis.py:42-55 | filtering all rows keeps each valid value's total, top-four and bottom-four counts and zeroes the rest |
| Aggregate.RowSplitsGames | tft_backend/analysis.py:57-64 | an emitted row for a valid value has more games than the threshold, top + bottom == games, and the two rates sum to 1 |
| Aggregate.Increment | tft_backend/analysis.py:51-55 | `d[k] += 1` on a defaultdict raises the count of `k` by one and changes no other count |
| Aggregate.TallyRow | tft_backend/analysis.py:50-55 | the inner tally loop adds the row's occurrences to the total and to the top or the bottom count according to placement |
| Aggregate.Tally | tft_backend/analysis.py:44-55 | after the loop, every value's total, top and bottom counts equal its occurrence counts, a value is a key iff it appears, and the iteration order lists every key exactly once |
| Aggregate.TakeBestIsRanking | tft_backend/analysis.py:66-68 | sorting the emitted rows by a rate and keeping ten yields a ranking: at most ten rows, sorted, distinct keys, each row the key's true stats, nothing left out better, full or complete |
| Aggregate.Rank | tft_backend/analysis.py:44-68 | from rows filtered to the valid values, emits the top-4 and bottom-4 rankings of the valid values |
| Ranking.TakeBest | tft_backend/item_analysis.py:225-226 | `sort_values(ascending=False).head(n)`: min(n, size) rows drawn from the input, sorted by the key, none left out with a better key |
| Ranking.SortDescCorrect | tft_backend/item_analysis.py:225 | the sort is a permutation and non-increasing in its key |
| Normaliser.PositionOf | tft_backend/item_analysis.py:121-125 | the index loop finds the first position of the player's id, or none iff the id is absent |
| Normaliser.TraitNames | tft_backend/item_analysis.py:137 | the trait names in order; fails iff some trait has no name |
| Normaliser.UnitIds | tft_backend/item_analysis.py:138 | the unit ids in order; fails iff some unit has no `character_id` |
| Normaliser.UnitItems | tft_backend/item_analysis.py:139 | one item list per unit; a unit without `itemNames` contributes `[]` |
| Normaliser.Project | tft_backend/item_analysis.py:133-140 | reads the participant at the found position; fails iff placement, level, traits (or a name) or units (or an id) is missing; on success the record has that placement and level, the trait names and unit ids in order, one item list per unit, and the augments (`[]` when absent) |
| Normaliser.Try | tft_backend/item_analysis.py:115-155 | the outcome of one match's try block: player absent iff the set number and id list are present but the id is not among them; a read happens iff the match is readable (set number, id list and participants present, the player found at a position that has a participant, and that participant projects); it gives the projected record of the participant at the player's position |
| Normaliser.Collect | tft_backend/item_analysis.py:106-155 | the columns stay aligned, `successful_matches` equals the number of rows, and the rows are exactly the read records in fetch order, set number included (push, then pop on absence or failure) |
| Normaliser.AppendedRow | tft_backend/item_analysis.py:142-146 | appending a record to every column except the already-pushed set number adds exactly that record as a row |
| Normaliser.ReadAllUnitsHaveItems | tft_backend/item_analysis.py:138-139 | every read record has one item list per unit |
| Normaliser.OfSet | tft_backend/item_analysis.py:163-164 | the set filter is an in-order sublist of the records; each set-14 record keeps its multiplicity and every other record is dropped |
| Normaliser.Load | tft_backend/item_analysis.py:89-167 | no match ids, fewer than 3 read matches and fewer than 3 set-14 matches each give their failure with the count found; it succeeds iff none applies, with the set-14 records |
| ItemAnalysis.ItemRowsCount | tft_backend/item_analysis.py:173-178 | one item row per match, and in each row every item is counted as often as it occurs over that match's unit lists |
| ItemAnalysis.FlattenCount | tft_backend/item_analysis.py:173-178 | flattening the unit lists counts an item once per unit slot holding it: its count in the flat row equals its occurrences over the lists |
| ItemAnalysis.FilterItems | tft_backend/item_analysis.py:187-190 | `filter_items` keeps one list per unit, each an in-order sublist of the original holding only valid items, valid counts unchanged |
| ItemAnalysis.FlattenFilterItems | tft_backend/item_analysis.py:187-208 | tallying the filtered unit lists slot by slot equals tallying the filtered flat item row |
| ItemAnalysis.Run | tft_backend/item_analysis.py:84-226 | the load failures as in Load; NoFrequentValues iff no item appears more than 10 times; success iff neither, with both lists rankings of the valid items over the set-14 matches |
| ItemAnalysis.RankFrame | tft_backend/item_analysis.py:170-226 | on a loaded frame: NoFrequentValues iff no item appears more than 10 times, otherwise the top-4 and bottom-4 rankings of the valid items |
| AugmentAnalysis.AugmentRows | tft_backend/augment_analysis.py:178 | each match's augment row is its augments list (`[]` when absent) |
| AugmentAnalysis.Run | tft_backend/augment_analysis.py:84-226 | the load failures; NoFrequentValues iff no augment appears more than once; success iff neither, with both lists rankings of the valid augments |
| CDragon.FirstTruthy | tft_backend/unit_analysis.py:92-99 | picks a truthy value of the list, and finds none exactly when every value is falsy; `FirstTruthyAppend` shows it is the first truthy value |
| CDragon.FindIsFirstCandidate | tft_backend/unit_analysis.py:85-102 | the search returns the traits of the first object, in depth-first order and not looking inside a match, whose `apiName` is the unit, that has `traits`, and whose traits are non-empty; with none, what it returns is falsy |
| CDragon.NativeTraits | tft_backend/unit_analysis.py:161-162 | the names `isin` excludes: for the first truthy candidate, the string entries of a list or the keys of an object; none for any other value, and none when there is no candidate |
| UnitAnalysis.Slots | tft_backend/unit_analysis.py:286 | exactly three slots: the first three items, then None |
| UnitAnalysis.ZipRowsAt | tft_backend/unit_analysis.py:284-294 | row k pairs the k-th unit with the k-th item list, padded to three slots, with the match's placement and traits |
| UnitAnalysis.Explode | tft_backend/unit_analysis.py:277-294 | the loop builds exactly the zipped rows of every match, in order |
| UnitAnalysis.ExplodeSize | tft_backend/unit_analysis.py:284-296 | `unit_df` has one row per fielded unit |
| UnitAnalysis.UnitGames | tft_backend/unit_analysis.py:106 | a unit's rows number exactly its raw appearances over the matches |
| UnitAnalysis.RowsOfMembers | tft_backend/unit_analysis.py:106 | the unit filter keeps exactly the rows of that unit: an in-order sublist of the rows in which each of the unit's rows keeps its multiplicity and every other row is dropped |
| UnitAnalysis.PresentItems | tft_backend/unit_analysis.py:121 | the filled slots: exactly the non-empty item names present in the slots, no more of them than slots |
| UnitAnalysis.PresentItemsInOrder | tft_backend/unit_analysis.py:121 | the filled items keep the slots' order: they form an in-order sublist of the slots |
| UnitAnalysis.PresentItemsCount | tft_backend/unit_analysis.py:121 | each non-empty item is kept as often as a slot holds it, and the empty name never |
| UnitAnalysis.CollectCombos | tft_backend/unit_analysis.py:119-127 | the nested loops build, row by row, one sample per combination key of the row's filled items, tagged with the row's placement |
| UnitAnalysis.CollectRowCombos | tft_backend/unit_analysis.py:121-127 | one row's samples: the combinations of sizes 1 to k of the sorted filled items, in itertools order |
| UnitAnalysis.CollectSized | tft_backend/unit_analysis.py:123-127 | one sample per combination of one size, joined by `' \| '` |
| UnitAnalysis.RowComboCount | tft_backend/unit_analysis.py:121-127 | a row with k filled slots emits 2^k − 1 combination rows, at most seven |
| UnitAnalysis.ComboSampleOrigin | tft_backend/unit_analysis.py:119-127 | every combination row carries the placement of some unit row and one of that row's combination keys |
| Combos.CombinationsCount | tft_backend/unit_analysis.py:123 | `combinations(s, r)` yields C(\|s\|, r) tuples |
| Combos.CombinationsOfSorted | tft_backend/unit_analysis.py:123 | every tuple of a sorted list has r elements, is sorted, and is a sub-multiset of the list |
| Combos.SortedChoiceIsCombination | tft_backend/unit_analysis.py:123 | conversely, every sorted sub-multiset of a sorted list is one of its tuples of that size |
| Combos.SumChooseAll | tft_backend/unit_analysis.py:122-123 | the sizes 0..n together give 2^n subsets |
| Combos.ComboKeysCount | tft_backend/unit_analysis.py:121-127 | k items yield 2^k − 1 keys |
| Combos.ComboKeysShape | tft_backend/unit_analysis.py:123-125 | every key joins, by `' \| '`, a sorted sub-multiset of 1 to k of the items |
| Combos.ComboKeysComplete | tft_backend/unit_analysis.py:121-125 | conversely, every non-empty sorted sub-multiset of the items, joined by `' \| '`, is a key |
| Combos.ComboKeysIgnoreSlotOrder | tft_backend/unit_analysis.py:123 | the keys do not depend on the order of the item slots |
| Text.SortStrings | tft_backend/unit_analysis.py:123 | `sorted` returns a permutation in Python string order |
| Text.SortIgnoresOrder | tft_backend/unit_analysis.py:123 | sorting depends only on the multiset of strings |
| Text.RemoveAll | tft_backend/unit_analysis.py:158 | `str.replace(pattern, '')` never lengthens a name |
| UnitAnalysis.NormaliseStripsPrefix | tft_backend/unit_analysis.py:158 | a trait name `TFT14_` + t, with no `TFT14_` inside t, normalises to t |
| Text.RemoveAllAbsent | tft_backend/unit_analysis.py:158 | a name without the prefix is unchanged |
| Text.RemoveAllPrefix | tft_backend/unit_analysis.py:158 | a leading prefix is removed |
| UnitAnalysis.RowTraitSamples | tft_backend/unit_analysis.py:155-162 | the exploded trait rows of one unit row: every normalised non-native trait with the row's placement, and nothing else |
| UnitAnalysis.RowTraitSamplesCount | tft_backend/unit_analysis.py:155-162 | a native trait gets no row, and a non-native one as many rows as the match's traits normalise to it |
| UnitAnalysis.TraitSamples | tft_backend/unit_analysis.py:155-162 | no trait row left after the native filter is a native trait |
| Grouping.GroupByCorrect | tft_backend/unit_analysis.py:131-135 | `groupby(...).agg(['mean','count'])` has distinct keys, one group per key with samples, each with that key's count and placement total; the counts add up to the number of rows |
| GroupRanking.AtLeastMembers | tft_backend/unit_analysis.py:138 | the count filter keeps exactly the groups with enough rows, with distinct keys |
| GroupRanking.TakeBestGroups | tft_backend/unit_analysis.py:138-141 | filtering by count, sorting by a score and taking n yields the top groups (IsTopGroups) |
| UnitAnalysis.AnalyzeUnit | tft_backend/unit_analysis.py:104-191 | fewer than min_games rows give the error with the count found; otherwise the report carries the row count, the native traits, the top_n combinations seen at least 3 times by lowest mean, and the top_n non-native traits by lowest mean, none of them native |
| UnitAnalysis.UnitSampleCount | tft_backend/unit_analysis.py:312 | `value_counts` counts exactly a unit's rows |
| UnitAnalysis.MostFieldedCorrect | tft_backend/unit_analysis.py:312 | the ten most fielded units, most fielded first, each with its number of rows; none left out is fielded more often than one kept |
| UnitAnalysis.ReportOnFrame | tft_backend/unit_analysis.py:277-326 | from a loaded frame: succeeds iff some unit was fielded, otherwise NoUnitRows; a name gives that unit's analysis, no name the summary of the most fielded units |
| UnitAnalysis.ReportOnEach | tft_backend/unit_analysis.py:315-320 | every listed unit with at least 3 rows yields a report with top_n 5 and min_games 2 and `total_games` = its count; the error branch never fires |
| UnitAnalysis.ReportOnUnit | tft_backend/unit_analysis.py:315-319 | one pass of the loop: a unit with fewer than 3 rows is passed over; otherwise its analysis is a report and is appended with its count |
| UnitAnalysis.SelectTopUnits | tft_backend/unit_analysis.py:312-325 | the summary's units are, in order, the most fielded units with at least 3 rows, each with its report; at most 10 |
| UnitAnalysis.Run | tft_backend/unit_analysis.py:193-326 | the load failures; success iff the load succeeds and some unit was fielded; NoUnitRows iff no unit was fielded; a non-empty name gives that unit's analysis with the defaults; otherwise the summary with the frame's match count, its unit-row count (= units fielded) and the selection |

## Left out

- Fetching (`get_match_ids`, `get_match_data`): the HTTP status handling, the retries and `time.sleep`, including the pause every ten matches. The fetched matches are an input sequence, and `None` is a match that could not be fetched. The match ids are not modelled separately: an empty input is "no match IDs".
- The Community Dragon download (`unit_analysis.py:299-304`). The JSON tree `cd` is an input; a failed download corresponds to passing an empty object.
- `tft_backend/main.py` (the Flask routes), `URL.py` and the frontend. They are not part of this model.
- Floating-point arithmetic and `round(…, 2)`. Rates and means are exact `real` quotients, and the report keeps each group's sum and count rather than the rounded mean.
- Tie order among equal rates, means or counts. pandas' default sort is not stable, so only ordering and truncation are stated.
- The `level` column. It is read (a missing level is a failure) and carried, but no analysis uses it.
- JSON numbers. Placements, levels and set numbers are integers; floats and JSON `true`/`false` placements are not modelled.
- Traits rows with no traits in the unit report. pandas `explode` makes a row with no trait name, which `groupby` drops; the model emits no row for them, so the resulting lists are the same.
- CDragon.NativeTraits: when the found `traits` value is a truthy string, number or boolean, `isin` raises a `TypeError`; the model treats it as no native traits instead of failing the analysis. For an object, the model excludes its keys, as `isin` does, but the report's `native_traits` carries those keys rather than the object itself. Non-string entries of a list are ignored.
- JSON `null` and wrongly typed field values. The raw match records (`MatchJson`) hold each field as either absent or a value of the expected type, so a `null` is read as an absent key. In Python it is `None` and behaves differently:
  - `"itemNames": null` makes `item.get('itemNames', [])` (`item_analysis.py:139`) return `None`. Iterating it in the `Counter` (`item_analysis.py:172-177`) raises outside the per-match `try`, so the item analysis fails. The model gives `[]` (`Normaliser.UnitItems`).
  - `"augments": null` likewise reaches `augment_analysis.py:178` as `None`, and the augment analysis fails. The model gives `[]` (`AugmentAnalysis.AugmentRows`).
  - `"placement": null` in the trait analysis (`analysis.py:35`) is appended and becomes NaN. Since `NaN <= 4` is false (`analysis.py:49-55`), it then counts as a bottom-four game. The model fails that match with `MalformedMatch` instead.
- Duplicate keys in a JSON object. `Lookup` takes the first, while Python's decoder keeps the last.

=== FILE: aggregate.dfy ===
/**
 * The top/bottom-four aggregator shared by the trait, item and augment
 * analyses: count raw appearances, keep the values counted more than a
 * threshold, tally each remaining appearance as top four or bottom four,
 * emit one rate row per value and keep the best rows by each rate.
 */
module Aggregate {
  import opened Wrappers
  import opened Counting
  import opened Ranking
  import opened Records

  /** One output row: `{key, 'Top 4 Rate', 'Bottom 4 Rate', 'Games Played'}`, rates kept as counts. */
  datatype Stat = Stat(key: string, top: nat, bottom: nat, games: nat)

  /** The two rankings `run_analysis` returns. */
  datatype Ranked = Ranked(top: seq<Stat>, bottom: seq<Stat>)

  /** `top / games`. */
  function TopRate(s: Stat): real
  {
    if s.games == 0 then 0.0 else s.top as real / s.games as real
  }

  /** `bottom / games`. */
  function BottomRate(s: Stat): real
  {
    if s.games == 0 then 0.0 else s.bottom as real / s.games as real
  }

  /** The row the aggregator emits for value `v`, stated over the raw rows. */
  function StatFor(placements: seq<int>, rows: seq<seq<string>>, v: string): Stat
    requires |placements| == |rows|
  {
    Stat(v, TopOccurrences(placements, rows, v), BottomOccurrences(placements, rows, v), Occurrences(rows, v))
  }

  lemma DivisionAdds(a: real, b: real, g: real)
    requires g > 0.0
    ensures a / g + b / g == (a + b) / g
  {
  }

  /** A row whose games split into top and bottom has rates that add up to one. */
  lemma RatesSumToOne(s: Stat)
    requires s.games > 0 && s.top + s.bottom == s.games
    ensures TopRate(s) + BottomRate(s) == 1.0
  {
    var g := s.games as real;
    DivisionAdds(s.top as real, s.bottom as real, g);
    assert s.top as real + s.bottom as real == g;
  }

  /** Every row emitted for a valid value has more than `threshold` games, split into top and bottom. */
  lemma {:induction false} RowSplitsGames(placements: seq<int>, rows: seq<seq<string>>, threshold: nat, v: string)
    requires |placements| == |rows|
    requires v in Frequent(rows, threshold)
    ensures StatFor(placements, rows, v).top + StatFor(placements, rows, v).bottom
            == StatFor(placements, rows, v).games > threshold
    ensures TopRate(StatFor(placements, rows, v)) + BottomRate(StatFor(placements, rows, v)) == 1.0
  {
    TopPlusBottom(placements, rows, v);
    RatesSumToOne(StatFor(placements, rows, v));
  }

  /**
   * `list` is what `sort_values(rate, ascending=False).head(n)` yields from
   * the rows of every value counted more than `threshold` times: at most `n`
   * rows, one per value, each describing its value's raw appearances, best
   * rate first; every valid value left out rates no better than every row
   * kept, and only a full list leaves anything out.
   */
  ghost predicate IsRanking(list: seq<Stat>, rate: Stat -> real, placements: seq<int>,
                            rows: seq<seq<string>>, threshold: nat, n: nat)
    requires |placements| == |rows|
  {
    && |list| <= n
    && SortedDesc(list, rate)
    && (forall s :: s in list ==> s.key in Frequent(rows, threshold) && s == StatFor(placements, rows, s.key))
    && (forall i, j :: 0 <= i < j < |list| ==> list[i].key != list[j].key)
    && (forall v, s :: v in Frequent(rows, threshold) && StatFor(placements, rows, v) !in list && s in list
          ==> rate(StatFor(placements, rows, v)) <= rate(s))
    && (|list| == n || forall v :: v in Frequent(rows, threshold) ==> StatFor(placements, rows, v) in list)
  }

  /** `defaultdict(int)` lookup. */
  function Get(m: map<string, nat>, k: string): nat
  {
    if k in m then m[k] else 0
  }

  predicate Distinct(s: seq<string>)
  {
    forall i, j :: 0 <= i < j < |s| ==> s[i] != s[j]
  }

  /** `m[k] += 1` on a `defaultdict(int)`. */
  function Increment(m: map<string, nat>, k: string): (r: map<string, nat>)
    ensures forall v :: Get(r, v) == Get(m, v) + (if v == k then 1 else 0)
    ensures forall v :: v in r <==> v in m || v == k
  {
    m[k := Get(m, k) + 1]
  }

  lemma CountExtend(row: seq<string>, j: nat)
    requires j < |row|
    ensures forall v :: Count(row[..j + 1], v) == Count(row[..j], v) + (if row[j] == v then 1 else 0)
  {
    assert row[..j + 1][..j] == row[..j];
  }

  /**
   * The inner tally loop over one row: every value in it increments its
   * total and, by the row's placement, its top or its bottom count.
   */
  method TallyRow(top: map<string, nat>, bottom: map<string, nat>, total: map<string, nat>, order: seq<string>,
                  row: seq<string>, isTop: bool)
    returns (top': map<string, nat>, bottom': map<string, nat>, total': map<string, nat>, order': seq<string>)
    requires Distinct(order) && forall v :: v in order <==> v in total
    requires forall v :: v in total <==> Get(total, v) > 0
    ensures forall v :: Get(total', v) == Get(total, v) + Count(row, v)
    ensures forall v :: Get(top', v) == Get(top, v) + (if isTop then Count(row, v) else 0)
    ensures forall v :: Get(bottom', v) == Get(bottom, v) + (if isTop then 0 else Count(row, v))
    ensures forall v :: v in total' <==> Get(total', v) > 0
    ensures Distinct(order') && forall v :: v in order' <==> v in total'
  {
    top', bottom', total', order' := top, bottom, total, order;
    var j := 0;
    while j < |row|
      invariant 0 <= j <= |row|
      invariant forall v :: Get(total', v) == Get(total, v) + Count(row[..j], v)
      invariant forall v :: Get(top', v) == Get(top, v) + (if isTop then Count(row[..j], v) else 0)
      invariant forall v :: Get(bottom', v) == Get(bottom, v) + (if isTop then 0 else Count(row[..j], v))
      invariant forall v :: v in total' <==> Get(total', v) > 0
      invariant Distinct(order') && forall v :: v in order' <==> v in total'
    {
      var value := row[j];
      CountExtend(row, j);
      if value !in total' {
        order' := order' + [value];
      }
      total' := Increment(total', value);
      if isTop {
        top' := Increment(top', value);
      } else {
        bottom' := Increment(bottom', value);
      }
      j := j + 1;
    }
    assert row[..j] == row;
  }

  /**
   * The tally loop: for every row and every value in it, increment the
   * value's total and its top or bottom count. `order` is the insertion
   * order of `total`, which the row-emitting loop iterates.
   */
  method Tally(placements: seq<int>, rows: seq<seq<string>>)
    returns (top: map<string, nat>, bottom: map<string, nat>, total: map<string, nat>, order: seq<string>)
    requires |placements| == |rows|
    ensures forall v :: v in total <==> Occurrences(rows, v) > 0
    ensures forall v :: Get(total, v) == Occurrences(rows, v)
    ensures forall v :: Get(top, v) == TopOccurrences(placements, rows, v)
    ensures forall v :: Get(bottom, v) == BottomOccurrences(placements, rows, v)
    ensures Distinct(order) && forall v :: v in order <==> v in total
  {
    top, bottom, total, order := map[], map[], map[], [];
    var i := 0;
    while i < |rows|
      invariant 0 <= i <= |rows|
      invariant forall v :: v in total <==> Get(total, v) > 0
      invariant forall v :: Get(total, v) == Occurrences(rows[..i], v)
      invariant forall v :: Get(top, v) == TopOccurrences(placements[..i], rows[..i], v)
      invariant forall v :: Get(bottom, v) == BottomOccurrences(placements[..i], rows[..i], v)
      invariant Distinct(order) && forall v :: v in order <==> v in total
    {
      assert rows[..i + 1][..i] == rows[..i];
      assert placements[..i + 1][..i] == placements[..i];
      top, bottom, total, order := TallyRow(top, bottom, total, order, rows[i], placements[i] <= 4);
      i := i + 1;
    }
    assert rows[..i] == rows;
    assert placements[..i] == placements;
  }

  /** Rows drawn from rows with distinct keys have distinct keys. */
  lemma SelectedKeysDistinct(list: seq<Stat>, stats: seq<Stat>, order: seq<string>)
    requires |stats| == |order| && Distinct(order)
    requires forall k :: 0 <= k < |order| ==> stats[k].key == order[k]
    requires multiset(list) <= multiset(stats)
    ensures forall i, j :: 0 <= i < j < |list| ==> list[i].key != list[j].key
  {
    forall a, b | 0 <= a < b < |stats| ensures stats[a] != stats[b] {
      assert stats[a].key == order[a] && stats[b].key == order[b];
    }
    forall i, j | 0 <= i < j < |list| ensures list[i].key != list[j].key {
      SubMultisetDistinct(list, stats, i, j);
      assert list[i] in multiset(list) && list[j] in multiset(list);
      var a :| 0 <= a < |stats| && stats[a] == list[i];
      var b :| 0 <= b < |stats| && stats[b] == list[j];
      assert a != b;
      assert order[a] != order[b];
    }
  }

  /** A row left out of the best `n` rates no better than any row kept. */
  lemma LeftOutNoBetter(list: seq<Stat>, stats: seq<Stat>, rate: Stat -> real, x: Stat)
    requires forall a, b :: a in list && b in multiset(stats) - multiset(list) ==> rate(b) <= rate(a)
    requires x in stats && x !in list
    ensures forall s :: s in list ==> rate(x) <= rate(s)
  {
    assert x in multiset(stats);
    assert x !in multiset(list);
    assert x in multiset(stats) - multiset(list);
  }

  /** The best `n` of the rows emitted for the valid values form a ranking. */
  lemma TakeBestIsRanking(stats: seq<Stat>, order: seq<string>, rate: Stat -> real,
                          placements: seq<int>, rows: seq<seq<string>>, threshold: nat, n: nat)
    requires |placements| == |rows|
    requires |stats| == |order| && Distinct(order)
    requires forall k :: 0 <= k < |order| ==> stats[k] == StatFor(placements, rows, order[k])
    requires forall v :: v in order <==> v in Frequent(rows, threshold)
    ensures IsRanking(TakeBest(stats, rate, n), rate, placements, rows, threshold, n)
  {
    var list := TakeBest(stats, rate, n);
    var valid := Frequent(rows, threshold);
    forall s | s in list ensures s in stats {
      assert s in multiset(list);
    }
    SelectedKeysDistinct(list, stats, order);
    forall v | v in valid ensures StatFor(placements, rows, v) in stats {
      var k :| 0 <= k < |order| && order[k] == v;
      assert stats[k] == StatFor(placements, rows, v);
    }
    forall v, s | v in valid && StatFor(placements, rows, v) !in list && s in list
      ensures rate(StatFor(placements, rows, v)) <= rate(s)
    {
      LeftOutNoBetter(list, stats, rate, StatFor(placements, rows, v));
    }
    if |list| != n {
      forall v | v in valid ensures StatFor(placements, rows, v) in list {
        FullSelection(list, stats, StatFor(placements, rows, v));
      }
    }
  }

  /**
   * Steps 3-5 of the aggregator: given each row cut down to the values
   * counted more than `threshold` times, tally, emit one row per value and
   * return the best `n` rows by top-four rate and by bottom-four rate.
   */
  method Rank(placements: seq<int>, rows: seq<seq<string>>, threshold: nat, filtered: seq<seq<string>>, n: nat)
    returns (ranked: Ranked)
    requires |placements| == |rows| == |filtered|
    requires forall i :: 0 <= i < |rows| ==> filtered[i] == KeepValid(rows[i], Frequent(rows, threshold))
    ensures IsRanking(ranked.top, TopRate, placements, rows, threshold, n)
    ensures IsRanking(ranked.bottom, BottomRate, placements, rows, threshold, n)
  {
    var valid := Frequent(rows, threshold);
    assert filtered == KeepValidRows(rows, valid);
    var top, bottom, total, order := Tally(placements, filtered);
    var stats: seq<Stat> := [];
    var i := 0;
    while i < |order|
      invariant 0 <= i <= |order| && |stats| == i
      invariant forall k :: 0 <= k < i ==> stats[k] == StatFor(placements, rows, order[k])
    {
      var v := order[i];
      KeepValidRowsCounts(placements, rows, valid, v);
      stats := stats + [Stat(v, Get(top, v), Get(bottom, v), total[v])];
      i := i + 1;
    }
    forall v ensures v in order <==> v in valid {
      KeepValidRowsCounts(placements, rows, valid, v);
    }
    TakeBestIsRanking(stats, order, TopRate, placements, rows, threshold, n);
    TakeBestIsRanking(stats, order, BottomRate, placements, rows, threshold, n);
    ranked := Ranked(TakeBest(stats, TopRate, n), TakeBest(stats, BottomRate, n));
  }
}

=== FILE: augment_analysis.dfy ===
/**
 * The augment analysis (`augment_analysis.py`): augments counted more than
 * once over the analysed set's matches are ranked, ten best by each rate.
 */
module AugmentAnalysis {
  import opened Wrappers
  import opened MatchJson
  import opened Records
  import opened Counting
  import opened Aggregate
  import opened Normaliser

  /** An augment must appear more than this many times to be ranked. */
  const AugmentThreshold: nat := 1

  /** Each ranking keeps this many rows. */
  const TopCount: nat := 10

  /** The `augments` column. */
  function AugmentRows(records: seq<MatchRecord>): (r: seq<seq<string>>)
    ensures |r| == |records| && forall i :: 0 <= i < |records| ==> r[i] == records[i].augments
  {
    seq(|records|, i requires 0 <= i < |records| => records[i].augments)
  }

  /**
   * `run_analysis`: fails as the frame loading does, then when no augment
   * is counted more than once; otherwise ranks the valid augments by
   * top-four and bottom-four rate, ten of each.
   */
  method Run(fetched: seq<Option<RawMatch>>, puuid: string) returns (r: Result<Ranked, Failure>)
    ensures fetched == [] ==> r == Failure(NoMatchIds)
    ensures fetched != [] && |ReadAll(fetched, puuid)| < MinMatches
            ==> r == Failure(InsufficientData(|ReadAll(fetched, puuid)|))
    ensures fetched != [] && |ReadAll(fetched, puuid)| >= MinMatches
            && |OfSet(ReadAll(fetched, puuid), TftSet)| < MinMatches
            ==> r == Failure(InsufficientSetData(|OfSet(ReadAll(fetched, puuid), TftSet)|))
    ensures Loads(fetched, puuid)
            ==> (r == Failure(NoFrequentValues) <==> Frequent(AugmentRows(OfSet(ReadAll(fetched, puuid), TftSet)), AugmentThreshold) == {})
    ensures r.Success? <==> Loads(fetched, puuid) && Frequent(AugmentRows(OfSet(ReadAll(fetched, puuid), TftSet)), AugmentThreshold) != {}
    ensures r.Success? ==>
      var records := OfSet(ReadAll(fetched, puuid), TftSet);
      IsRanking(r.value.top, TopRate, Placements(records), AugmentRows(records), AugmentThreshold, TopCount)
    ensures r.Success? ==>
      var records := OfSet(ReadAll(fetched, puuid), TftSet);
      IsRanking(r.value.bottom, BottomRate, Placements(records), AugmentRows(records), AugmentThreshold, TopCount)
  {
    var loaded := Load(fetched, puuid);
    if loaded.Failure? {
      return Failure(loaded.error);
    }
    var records := loaded.value;
    var rows := AugmentRows(records);
    var valid := Frequent(rows, AugmentThreshold);
    if valid == {} {
      return Failure(NoFrequentValues);
    }
    var filtered := KeepValidRows(rows, valid);
    var ranked := Rank(Placements(records), rows, AugmentThreshold, filtered, TopCount);
    r := Success(ranked);
  }
}

=== FILE: cdragon.dfy ===
/**
 * The Community Dragon data as a JSON tree, and the depth-first search of
 * `get_unit_traits_from_data` for a unit's native traits.
 */
module CDragon {
  import opened Wrappers

  /** A JSON value; object fields keep their order, as Python dicts do. */
  datatype Json =
    | JNull
    | JBool(b: bool)
    | JNum(n: int)
    | JStr(s: string)
    | JArr(items: seq<Json>)
    | JObj(fields: seq<Field>)

  datatype Field = Field(name: string, value: Json)

  /** Python truthiness of a decoded JSON value. */
  predicate Truthy(j: Json)
  {
    match j
    case JNull => false
    case JBool(b) => b
    case JNum(n) => n != 0
    case JStr(s) => s != ""
    case JArr(items) => items != []
    case JObj(fields) => fields != []
  }

  /** `obj.get(name)`. */
  function Lookup(fields: seq<Field>, name: string): Option<Json>
  {
    if fields == [] then None
    else if fields[0].name == name then Some(fields[0].value)
    else Lookup(fields[1..], name)
  }

  /** `obj.get("apiName") == unit and "traits" in obj`. */
  predicate IsUnitNode(fields: seq<Field>, unit: string)
  {
    Lookup(fields, "apiName") == Some(JStr(unit)) && Lookup(fields, "traits").Some?
  }

  /**
   * `find_unit`: a matching object returns its `traits` at once; otherwise
   * the children are searched in order and the first truthy result wins;
   * with none, `[]`.
   */
  function Find(j: Json, unit: string): Json
  {
    match j
    case JObj(fields) =>
      if IsUnitNode(fields, unit) then Lookup(fields, "traits").value else FindInFields(fields, unit)
    case JArr(items) => FindInItems(items, unit)
    case _ => JArr([])
  }

  function FindInItems(items: seq<Json>, unit: string): Json
  {
    if items == [] then JArr([])
    else
      var r := Find(items[0], unit);
      if Truthy(r) then r else FindInItems(items[1..], unit)
  }

  function FindInFields(fields: seq<Field>, unit: string): Json
  {
    if fields == [] then JArr([])
    else
      var r := Find(fields[0].value, unit);
      if Truthy(r) then r else FindInFields(fields[1..], unit)
  }

  /**
   * Reference: the `traits` of every matching object in depth-first order,
   * not looking inside a matching object.
   */
  function Candidates(j: Json, unit: string): seq<Json>
  {
    match j
    case JObj(fields) =>
      if IsUnitNode(fields, unit) then [Lookup(fields, "traits").value] else FieldCandidates(fields, unit)
    case JArr(items) => ItemCandidates(items, unit)
    case _ => []
  }

  function ItemCandidates(items: seq<Json>, unit: string): seq<Json>
  {
    if items == [] then [] else Candidates(items[0], unit) + ItemCandidates(items[1..], unit)
  }

  function FieldCandidates(fields: seq<Field>, unit: string): seq<Json>
  {
    if fields == [] then [] else Candidates(fields[0].value, unit) + FieldCandidates(fields[1..], unit)
  }

  /** The first truthy value of a list, if any. */
  function FirstTruthy(vs: seq<Json>): (r: Option<Json>)
    ensures r.Some? ==> Truthy(r.value) && r.value in vs
    ensures r.None? ==> forall v :: v in vs ==> !Truthy(v)
  {
    if vs == [] then None else if Truthy(vs[0]) then Some(vs[0]) else FirstTruthy(vs[1..])
  }

  lemma {:induction false} FirstTruthyAppend(a: seq<Json>, b: seq<Json>)
    ensures FirstTruthy(a + b) == if FirstTruthy(a).Some? then FirstTruthy(a) else FirstTruthy(b)
  {
    if a != [] {
      FirstTruthyAppend(a[1..], b);
      assert (a + b)[1..] == a[1..] + b;
    } else {
      assert a + b == b;
    }
  }

  /**
   * The search returns the traits of the first matching object, in
   * depth-first order, whose traits are non-empty; when there is none, what
   * it returns is empty.
   */
  lemma {:induction false} FindIsFirstCandidate(j: Json, unit: string)
    ensures FirstTruthy(Candidates(j, unit)) == if Truthy(Find(j, unit)) then Some(Find(j, unit)) else None
  {
    match j
    case JObj(fields) =>
      if !IsUnitNode(fields, unit) {
        FindInFieldsIsFirstCandidate(fields, unit);
      }
    case JArr(items) => FindInItemsIsFirstCandidate(items, unit);
    case _ =>
  }

  lemma {:induction false} FindInItemsIsFirstCandidate(items: seq<Json>, unit: string)
    ensures FirstTruthy(ItemCandidates(items, unit))
            == if Truthy(FindInItems(items, unit)) then Some(FindInItems(items, unit)) else None
  {
    if items != [] {
      FindIsFirstCandidate(items[0], unit);
      FindInItemsIsFirstCandidate(items[1..], unit);
      FirstTruthyAppend(Candidates(items[0], unit), ItemCandidates(items[1..], unit));
    }
  }

  lemma {:induction false} FindInFieldsIsFirstCandidate(fields: seq<Field>, unit: string)
    ensures FirstTruthy(FieldCandidates(fields, unit))
            == if Truthy(FindInFields(fields, unit)) then Some(FindInFields(fields, unit)) else None
  {
    if fields != [] {
      FindIsFirstCandidate(fields[0].value, unit);
      FindInFieldsIsFirstCandidate(fields[1..], unit);
      FirstTruthyAppend(Candidates(fields[0].value, unit), FieldCandidates(fields[1..], unit));
    }
  }

  /** The string entries of a JSON list. */
  function Strings(items: seq<Json>): (r: seq<string>)
    ensures forall s :: s in r <==> JStr(s) in items
  {
    if items == [] then []
    else (if items[0].JStr? then [items[0].s] else []) + Strings(items[1..])
  }

  /** The keys of an object, in order, as `list(d)` gives them. */
  function Keys(fields: seq<Field>): (r: seq<string>)
    ensures forall k :: k in r <==> exists f :: f in fields && f.name == k
  {
    if fields == [] then [] else [fields[0].name] + Keys(fields[1..])
  }

  /**
   * `get_unit_traits_from_data(unit, cd_data)`, read as the names that
   * `Series.isin` excludes: the string entries of a list, the keys of an
   * object, and none for any other value.
   */
  function NativeTraits(cd: Json, unit: string): (r: seq<string>)
    ensures FirstTruthy(Candidates(cd, unit)).None? ==> r == []
    ensures FirstTruthy(Candidates(cd, unit)).Some? && FirstTruthy(Candidates(cd, unit)).value.JArr?
            ==> r == Strings(FirstTruthy(Candidates(cd, unit)).value.items)
    ensures FirstTruthy(Candidates(cd, unit)).Some? && FirstTruthy(Candidates(cd, unit)).value.JObj?
            ==> r == Keys(FirstTruthy(Candidates(cd, unit)).value.fields)
    ensures FirstTruthy(Candidates(cd, unit)).Some?
            && !FirstTruthy(Candidates(cd, unit)).value.JArr? && !FirstTruthy(Candidates(cd, unit)).value.JObj?
            ==> r == []
  {
    FindIsFirstCandidate(cd, unit);
    match Find(cd, unit)
    case JArr(items) => Strings(items)
    case JObj(fields) => Keys(fields)
    case _ => []
  }
}

=== FILE: combos.dfy ===
/**
 * `itertools.combinations` and the count of the non-empty item
 * combinations the unit report enumerates for one unit row.
 */
module Combos {
  import opened Text

  /**
   * `combinations(s, r)`, in itertools' order: those that take `s[0]`
   * first, then those that do not.
   */
  function Combinations<T>(s: seq<T>, r: nat): seq<seq<T>>
  {
    if r == 0 then [[]]
    else if s == [] then []
    else
      PrefixEach(s[0], Combinations(s[1..], r - 1)) + Combinations(s[1..], r)
  }

  /** `x` put in front of every tuple. */
  function PrefixEach<T>(x: T, tuples: seq<seq<T>>): (r: seq<seq<T>>)
    ensures |r| == |tuples|
  {
    seq(|tuples|, i requires 0 <= i < |tuples| => [x] + tuples[i])
  }

  /** Binomial coefficients, by Pascal's rule. */
  function Choose(n: nat, r: nat): nat
  {
    if r == 0 then 1
    else if n == 0 then 0
    else Choose(n - 1, r - 1) + Choose(n - 1, r)
  }

  function Pow2(n: nat): nat
  {
    if n == 0 then 1 else 2 * Pow2(n - 1)
  }

  /** `combinations(s, r)` yields `Choose(|s|, r)` tuples. */
  lemma {:induction false} CombinationsCount<T>(s: seq<T>, r: nat)
    ensures |Combinations(s, r)| == Choose(|s|, r)
  {
    if r != 0 && s != [] {
      CombinationsCount(s[1..], r - 1);
      CombinationsCount(s[1..], r);
    }
  }

  /** Every tuple is `r` elements of `s`, each index taken at most once, kept in `s`'s order. */
  lemma {:induction false} CombinationsOfSorted(s: seq<string>, r: nat, c: seq<string>)
    requires Sorted(s) && c in Combinations(s, r)
    ensures |c| == r && Sorted(c) && multiset(c) <= multiset(s)
  {
    if r != 0 && s != [] {
      var taking := Combinations(s[1..], r - 1);
      SortedTail(s);
      if c in Combinations(s[1..], r) {
        CombinationsOfSorted(s[1..], r, c);
        TailMultiset(s);
      } else {
        assert c in PrefixEach(s[0], taking);
        var i :| 0 <= i < |taking| && c == PrefixEach(s[0], taking)[i];
        CombinationsOfSorted(s[1..], r - 1, taking[i]);
        HeadLeastOfChoice(s, taking[i]);
        SortedCons(s[0], taking[i]);
        ConsMultiset(s, taking[i]);
      }
    }
  }

  /** Dropping the head of `s` leaves a sub-multiset. */
  lemma TailMultiset(s: seq<string>)
    requires s != []
    ensures multiset(s[1..]) <= multiset(s)
  {
    assert s == [s[0]] + s[1..];
  }

  /** Putting the head of `s` before a choice from its tail gives a choice from `s`. */
  lemma ConsMultiset(s: seq<string>, t: seq<string>)
    requires s != [] && multiset(t) <= multiset(s[1..])
    ensures multiset([s[0]] + t) <= multiset(s)
  {
    assert s == [s[0]] + s[1..];
  }

  /** The head of a sorted `s` is at most every element chosen from its tail. */
  lemma HeadLeastOfChoice(s: seq<string>, t: seq<string>)
    requires s != [] && Sorted(s) && multiset(t) <= multiset(s[1..])
    ensures forall x :: x in t ==> LexLe(s[0], x)
  {
    forall x | x in t ensures LexLe(s[0], x) {
      assert x in multiset(s[1..]);
      HeadIsLeast(s, x);
    }
  }

  /** Conversely, every sorted choice of `r` elements of a sorted `s` is one of its combinations. */
  lemma {:induction false} SortedChoiceIsCombination(s: seq<string>, c: seq<string>)
    requires Sorted(s) && Sorted(c) && multiset(c) <= multiset(s)
    ensures c in Combinations(s, |c|)
  {
    if c != [] {
      assert c[0] in multiset(s);
      SortedTail(s);
      SortedTail(c);
      if c[0] == s[0] {
        UnconsMultiset(s, c);
        SortedChoiceIsCombination(s[1..], c[1..]);
        TakingHead(s, c);
      } else {
        SkipHead(s, c);
        SortedChoiceIsCombination(s[1..], c);
        SkippingHead(s, c);
      }
    }
  }

  /** A tuple that starts with `s[0]`, followed by a tuple of `s[1..]`, is a tuple of `s`. */
  lemma TakingHead<T>(s: seq<T>, c: seq<T>)
    requires s != [] && c != [] && c[0] == s[0] && c[1..] in Combinations(s[1..], |c| - 1)
    ensures c in Combinations(s, |c|)
  {
    var taking := Combinations(s[1..], |c| - 1);
    var front := PrefixEach(s[0], taking);
    assert Combinations(s, |c|) == front + Combinations(s[1..], |c|);
    var i :| 0 <= i < |taking| && taking[i] == c[1..];
    assert front[i] == [s[0]] + c[1..] == c;
    assert c in front;
  }

  /** A tuple of `s[1..]` is a tuple of `s`. */
  lemma SkippingHead<T>(s: seq<T>, c: seq<T>)
    requires s != [] && c != [] && c in Combinations(s[1..], |c|)
    ensures c in Combinations(s, |c|)
  {
    var taking := PrefixEach(s[0], Combinations(s[1..], |c| - 1));
    assert Combinations(s, |c|) == taking + Combinations(s[1..], |c|);
  }

  lemma UnconsMultiset(s: seq<string>, c: seq<string>)
    requires s != [] && c != [] && c[0] == s[0] && multiset(c) <= multiset(s)
    ensures multiset(c[1..]) <= multiset(s[1..])
  {
    assert s == [s[0]] + s[1..];
    assert c == [c[0]] + c[1..];
    assert multiset(c) == multiset{c[0]} + multiset(c[1..]);
    assert multiset(s) == multiset{c[0]} + multiset(s[1..]);
    forall x ensures multiset(c[1..])[x] <= multiset(s[1..])[x] {
      assert multiset(c)[x] <= multiset(s)[x];
    }
  }

  /** A sorted choice from a sorted `s` that does not start with `s`'s head does not use it. */
  lemma SkipHead(s: seq<string>, c: seq<string>)
    requires s != [] && c != [] && Sorted(s) && Sorted(c) && multiset(c) <= multiset(s) && c[0] != s[0]
    ensures multiset(c) <= multiset(s[1..])
  {
    assert c[0] in multiset(s);
    if s[0] in c {
      SmallestIsFirst(s, c[0]);
      SmallestIsFirst(c, s[0]);
      LexLeAntisymmetric(s[0], c[0]);
    }
    assert s == [s[0]] + s[1..];
    assert multiset(c)[s[0]] == 0;
  }

  /** The position of a member of a sequence. */
  function IndexOf<T(==)>(s: seq<T>, x: T): (i: nat)
    requires x in s
    ensures i < |s| && s[i] == x
  {
    if s[0] == x then 0 else 1 + IndexOf(s[1..], x)
  }

  /** The head of a sorted sequence is at most each of its elements. */
  lemma SmallestIsFirst(s: seq<string>, x: string)
    requires s != [] && Sorted(s) && x in s
    ensures LexLe(s[0], x)
  {
    if x == s[0] {
      LexLeReflexive(x);
    } else {
      assert x in s[1..];
      HeadIsLeast(s, x);
    }
  }

  lemma SortedTail(s: seq<string>)
    requires s != [] && Sorted(s)
    ensures Sorted(s[1..])
  {
    forall i, j | 0 <= i < j < |s[1..]| ensures LexLe(s[1..][i], s[1..][j]) {
      assert s[1..][i] == s[i + 1] && s[1..][j] == s[j + 1];
    }
  }

  lemma HeadIsLeast(s: seq<string>, x: string)
    requires s != [] && Sorted(s) && x in s[1..]
    ensures LexLe(s[0], x)
  {
    var k :| 0 <= k < |s[1..]| && s[1..][k] == x;
    assert s[k + 1] == x;
  }

  lemma SortedCons(h: string, t: seq<string>)
    requires Sorted(t) && forall x :: x in t ==> LexLe(h, x)
    ensures Sorted([h] + t)
  {
    forall i, j | 0 <= i < j < |[h] + t| ensures LexLe(([h] + t)[i], ([h] + t)[j]) {
      assert ([h] + t)[j] == t[j - 1];
      if i > 0 {
        assert ([h] + t)[i] == t[i - 1];
      }
    }
  }

  lemma {:induction false} ChooseAbove(n: nat, r: nat)
    requires r > n
    ensures Choose(n, r) == 0
  {
    if n > 0 {
      ChooseAbove(n - 1, r - 1);
      ChooseAbove(n - 1, r);
    }
  }

  /** `Choose(n, 0) + ... + Choose(n, m)`. */
  function SumChoose(n: nat, m: nat): nat
  {
    if m == 0 then Choose(n, 0) else SumChoose(n, m - 1) + Choose(n, m)
  }

  lemma {:induction false} SumChoosePascal(n: nat, m: nat)
    requires m >= 1
    ensures SumChoose(n + 1, m) == SumChoose(n, m) + SumChoose(n, m - 1)
  {
    if m > 1 {
      SumChoosePascal(n, m - 1);
    }
  }

  /** The sizes `0..n` together make up every subset. */
  lemma {:induction false} SumChooseAll(n: nat)
    ensures SumChoose(n, n) == Pow2(n)
  {
    if n > 0 {
      SumChooseAll(n - 1);
      SumChoosePascal(n - 1, n);
      ChooseAbove(n - 1, n);
    }
  }

  /**
   * The combination keys of one unit row: for each size from 1 up to the
   * number of items, every combination of the sorted items, joined by
   * `' | '`.
   */
  function ComboKeys(items: seq<string>): (keys: seq<string>)
  {
    ComboKeysUpTo(SortStrings(items), |items|)
  }

  function ComboKeysUpTo(sorted: seq<string>, r: nat): seq<string>
  {
    if r == 0 then []
    else
      ComboKeysUpTo(sorted, r - 1) + JoinEach(Combinations(sorted, r))
  }

  /** `' | '.join(combo)` for every combination. */
  function JoinEach(combos: seq<seq<string>>): (keys: seq<string>)
    ensures |keys| == |combos|
  {
    seq(|combos|, i requires 0 <= i < |combos| => Join(combos[i], " | "))
  }

  lemma {:induction false} ComboKeysUpToCount(sorted: seq<string>, r: nat)
    ensures |ComboKeysUpTo(sorted, r)| == SumChoose(|sorted|, r) - 1
  {
    if r > 0 {
      ComboKeysUpToCount(sorted, r - 1);
      CombinationsCount(sorted, r);
    }
  }

  /** A row with `k` items emits exactly `2^k - 1` combination keys. */
  lemma ComboKeysCount(items: seq<string>)
    ensures |ComboKeys(items)| == Pow2(|items|) - 1
  {
    var sorted := SortStrings(items);
    assert |sorted| == |items| by { assert |multiset(sorted)| == |multiset(items)|; }
    ComboKeysUpToCount(sorted, |items|);
    SumChooseAll(|items|);
  }

  /** The keys of a row do not depend on the order of its item slots. */
  lemma ComboKeysIgnoreSlotOrder(a: seq<string>, b: seq<string>)
    requires multiset(a) == multiset(b)
    ensures ComboKeys(a) == ComboKeys(b)
  {
    SortIgnoresOrder(a, b);
    assert |a| == |b| by { assert |multiset(a)| == |multiset(b)|; }
  }

  lemma {:induction false} ComboKeysUpToShape(sorted: seq<string>, r: nat, key: string)
    requires Sorted(sorted) && key in ComboKeysUpTo(sorted, r)
    ensures exists c :: Sorted(c) && 1 <= |c| <= r && multiset(c) <= multiset(sorted) && key == Join(c, " | ")
  {
    var combos := Combinations(sorted, r);
    if key in ComboKeysUpTo(sorted, r - 1) {
      ComboKeysUpToShape(sorted, r - 1, key);
    } else {
      var i :| 0 <= i < |combos| && key == JoinEach(combos)[i];
      CombinationsOfSorted(sorted, r, combos[i]);
    }
  }

  /**
   * Every key is a choice of one up to all of the row's items (each slot
   * used at most once), sorted and joined by `' | '`.
   */
  lemma ComboKeysShape(items: seq<string>, key: string)
    requires key in ComboKeys(items)
    ensures exists c :: Sorted(c) && 1 <= |c| <= |items| && multiset(c) <= multiset(items) && key == Join(c, " | ")
  {
    var sorted := SortStrings(items);
    ComboKeysUpToShape(sorted, |items|, key);
  }

  lemma ComboKeysUpToComplete(sorted: seq<string>, r: nat, c: seq<string>)
    requires Sorted(sorted) && Sorted(c) && multiset(c) <= multiset(sorted) && 1 <= |c| <= r
    ensures Join(c, " | ") in ComboKeysUpTo(sorted, r)
  {
    SizedKeyHas(sorted, |c|, c);
    KeysUpToContains(sorted, r, |c|, Join(c, " | "));
  }

  /** A key of some size `k` from 1 to `r` is a key of size at most `r`. */
  lemma {:induction false} KeysUpToContains(sorted: seq<string>, r: nat, k: nat, x: string)
    requires 1 <= k <= r && x in JoinEach(Combinations(sorted, k))
    ensures x in ComboKeysUpTo(sorted, r)
  {
    var shorter := ComboKeysUpTo(sorted, r - 1);
    var sized := JoinEach(Combinations(sorted, r));
    if k < r {
      KeysUpToContains(sorted, r - 1, k, x);
      InAppend(shorter, sized, x);
    } else {
      InAppend(shorter, sized, x);
    }
  }

  /** A sorted choice of r items has its key among the keys of size r. */
  lemma SizedKeyHas(sorted: seq<string>, r: nat, c: seq<string>)
    requires Sorted(sorted) && Sorted(c) && multiset(c) <= multiset(sorted) && |c| == r
    ensures Join(c, " | ") in JoinEach(Combinations(sorted, r))
  {
    SortedChoiceIsCombination(sorted, c);
    JoinEachHas(Combinations(sorted, r), c);
  }

  lemma InAppend(a: seq<string>, b: seq<string>, x: string)
    requires x in a || x in b
    ensures x in a + b
  {
  }

  lemma JoinEachHas(combos: seq<seq<string>>, c: seq<string>)
    requires c in combos
    ensures Join(c, " | ") in JoinEach(combos)
  {
    var i := IndexOf(combos, c);
    assert JoinEach(combos)[i] == Join(c, " | ");
  }

  /**
   * Conversely, every choice of one or more of the row's items (each slot
   * used at most once), sorted and joined by `' | '`, is a key.
   */
  lemma ComboKeysComplete(items: seq<string>, c: seq<string>)
    requires Sorted(c) && 1 <= |c| && multiset(c) <= multiset(items)
    ensures Join(c, " | ") in ComboKeys(items)
  {
    SubMultisetSize(c, items);
    ComboKeysUpToComplete(SortStrings(items), |items|, c);
  }

  lemma SubMultisetSize(c: seq<string>, s: seq<string>)
    requires multiset(c) <= multiset(s)
    ensures |c| <= |s|
  {
    var rest := multiset(s) - multiset(c);
    assert multiset(s) == multiset(c) + rest;
    assert |multiset(s)| == |multiset(c)| + |rest|;
  }
}

=== FILE: counting.dfy ===
/**
 * Occurrence counting behind every `Counter` and every `defaultdict(int)` tally
 * of the backend: how often a value appears in one row, across all rows, and
 * across the rows whose placement is in the top four or not.
 */
module Counting {

  /** Number of times `v` occurs in `row`. */
  function Count(row: seq<string>, v: string): nat
  {
    if row == [] then 0
    else Count(row[..|row| - 1], v) + (if row[|row| - 1] == v then 1 else 0)
  }

  /** The raw appearance count of `v` over all rows, one per occurrence. */
  function Occurrences(rows: seq<seq<string>>, v: string): nat
  {
    if rows == [] then 0
    else Occurrences(rows[..|rows| - 1], v) + Count(rows[|rows| - 1], v)
  }

  /** A game counts as "top four" when its placement is at most 4. */
  predicate IsTop(placement: int)
  {
    placement <= 4
  }

  /** Appearances of `v` in rows whose placement is in the top four. */
  function TopOccurrences(placements: seq<int>, rows: seq<seq<string>>, v: string): nat
    requires |placements| == |rows|
  {
    if rows == [] then 0
    else
      var n := |rows| - 1;
      TopOccurrences(placements[..n], rows[..n], v)
        + (if IsTop(placements[n]) then Count(rows[n], v) else 0)
  }

  /** Appearances of `v` in rows whose placement is below the top four. */
  function BottomOccurrences(placements: seq<int>, rows: seq<seq<string>>, v: string): nat
    requires |placements| == |rows|
  {
    if rows == [] then 0
    else
      var n := |rows| - 1;
      BottomOccurrences(placements[..n], rows[..n], v)
        + (if IsTop(placements[n]) then 0 else Count(rows[n], v))
  }

  /** Every value that appears somewhere in `rows`. */
  function Values(rows: seq<seq<string>>): set<string>
  {
    set i, j | 0 <= i < |rows| && 0 <= j < |rows[i]| :: rows[i][j]
  }

  /** Every appearance is either a top-four or a bottom-four appearance, never both. */
  lemma {:induction false} TopPlusBottom(placements: seq<int>, rows: seq<seq<string>>, v: string)
    requires |placements| == |rows|
    ensures TopOccurrences(placements, rows, v) + BottomOccurrences(placements, rows, v)
            == Occurrences(rows, v)
  {
    if rows != [] {
      var n := |rows| - 1;
      TopPlusBottom(placements[..n], rows[..n], v);
    }
  }

  /** Counting is additive over concatenation. */
  lemma {:induction false} CountAppend(a: seq<string>, b: seq<string>, v: string)
    ensures Count(a + b, v) == Count(a, v) + Count(b, v)
  {
    if b != [] {
      var n := |b| - 1;
      CountAppend(a, b[..n], v);
      assert (a + b)[..|a + b| - 1] == a + b[..n];
    } else {
      assert a + b == a;
    }
  }

  lemma {:induction false} CountPositive(row: seq<string>, v: string)
    ensures Count(row, v) > 0 <==> v in row
  {
    if row != [] {
      var n := |row| - 1;
      CountPositive(row[..n], v);
      assert row == row[..n] + [row[n]];
    }
  }

  /** A value has a positive raw count exactly when it appears in some row. */
  lemma {:induction false} OccurrencesPositive(rows: seq<seq<string>>, v: string)
    ensures Occurrences(rows, v) > 0 <==> v in Values(rows)
  {
    if rows != [] {
      var n := |rows| - 1;
      OccurrencesPositive(rows[..n], v);
      CountPositive(rows[n], v);
      if v in Values(rows[..n]) {
        var i, j :| 0 <= i < n && 0 <= j < |rows[..n][i]| && rows[..n][i][j] == v;
        assert rows[i][j] == v;
      }
      if v in rows[n] {
        var j :| 0 <= j < |rows[n]| && rows[n][j] == v;
        assert v in Values(rows);
      }
      if v in Values(rows) {
        var i, j :| 0 <= i < |rows| && 0 <= j < |rows[i]| && rows[i][j] == v;
        if i < n {
          assert rows[..n][i][j] == v;
        }
      }
    }
  }

  /**
   * The values whose raw count is strictly above `threshold`: the
   * `{v for v, count in Counter(...).items() if count > threshold}` set.
   */
  function Frequent(rows: seq<seq<string>>, threshold: nat): (valid: set<string>)
    ensures forall v :: v in valid <==> Occurrences(rows, v) > threshold
  {
    assert forall v :: Occurrences(rows, v) > 0 ==> v in Values(rows) by {
      forall v { OccurrencesPositive(rows, v); }
    }
    set v | v in Values(rows) && Occurrences(rows, v) > threshold
  }

  /** `r` is an in-order sublist of `s` (some elements of `s` dropped, none reordered). */
  predicate Sublist<T(==)>(r: seq<T>, s: seq<T>)
    decreases |s|
  {
    if r == [] then true
    else if s == [] then false
    else if r[|r| - 1] == s[|s| - 1] then Sublist(r[..|r| - 1], s[..|s| - 1])
    else Sublist(r, s[..|s| - 1])
  }

  /** `[t for t in row if t in valid]`. */
  function KeepValid(row: seq<string>, valid: set<string>): (r: seq<string>)
    ensures Sublist(r, row)
    ensures forall x :: x in r ==> x in valid
    ensures forall v :: Count(r, v) == if v in valid then Count(row, v) else 0
  {
    if row == [] then []
    else
      var n := |row| - 1;
      var front := KeepValid(row[..n], valid);
      if row[n] in valid then
        assert (front + [row[n]])[..|front|] == front;
        front + [row[n]]
      else front
  }

  /** `KeepValid` applied to every row. */
  function KeepValidRows(rows: seq<seq<string>>, valid: set<string>): (r: seq<seq<string>>)
    ensures |r| == |rows|
    ensures forall i :: 0 <= i < |rows| ==> r[i] == KeepValid(rows[i], valid)
  {
    seq(|rows|, i requires 0 <= i < |rows| => KeepValid(rows[i], valid))
  }

  /**
   * Filtering to the valid values keeps every appearance of a valid value,
   * in the top four and below it, and removes every appearance of the rest.
   */
  lemma {:induction false} KeepValidRowsCounts(placements: seq<int>, rows: seq<seq<string>>, valid: set<string>, v: string)
    requires |placements| == |rows|
    ensures Occurrences(KeepValidRows(rows, valid), v) == if v in valid then Occurrences(rows, v) else 0
    ensures TopOccurrences(placements, KeepValidRows(rows, valid), v)
            == if v in valid then TopOccurrences(placements, rows, v) else 0
    ensures BottomOccurrences(placements, KeepValidRows(rows, valid), v)
            == if v in valid then BottomOccurrences(placements, rows, v) else 0
  {
    if rows != [] {
      var n := |rows| - 1;
      KeepValidRowsCounts(placements[..n], rows[..n], valid, v);
      assert KeepValidRows(rows, valid)[..n] == KeepValidRows(rows[..n], valid);
    }
  }
}

=== FILE: group_ranking.dfy ===
/**
 * Ranking the rows of a `groupby` aggregate: keep the groups with enough
 * rows, order them by a score and keep the first `n`. The unit report
 * orders item combinations and synergy traits by ascending mean placement
 * and units by descending frequency.
 */
module GroupRanking {
  import opened Ranking
  import opened Grouping

  /** The aggregated row `groupby` yields for key `k`. */
  function GroupOf(samples: seq<Sample>, k: string): Group
  {
    Group(k, SumOf(samples, k), CountOf(samples, k))
  }

  /** `k` has a group with at least `minCount` rows. */
  predicate Eligible(samples: seq<Sample>, k: string, minCount: nat)
  {
    CountOf(samples, k) > 0 && CountOf(samples, k) >= minCount
  }

  /** `stats[stats['count'] >= minCount]`, order kept. */
  function AtLeast(groups: seq<Group>, minCount: nat): (r: seq<Group>)
    ensures |r| <= |groups|
  {
    if groups == [] then []
    else
      var n := |groups| - 1;
      AtLeast(groups[..n], minCount) + (if groups[n].count >= minCount then [groups[n]] else [])
  }

  /** The filter keeps exactly the groups with enough rows, and distinct keys stay distinct. */
  lemma {:induction false} AtLeastMembers(groups: seq<Group>, minCount: nat)
    ensures forall g :: g in AtLeast(groups, minCount) <==> g in groups && g.count >= minCount
    ensures DistinctKeys(groups) ==> DistinctKeys(AtLeast(groups, minCount))
  {
    if groups != [] {
      var n := |groups| - 1;
      var front := AtLeast(groups[..n], minCount);
      AtLeastMembers(groups[..n], minCount);
      assert groups == groups[..n] + [groups[n]];
      assert DistinctKeys(groups) ==> DistinctKeys(groups[..n]);
      assert DistinctKeys(groups) ==> forall g :: g in front ==> g.key != groups[n].key;
    }
  }

  /** A filter that every group passes keeps them all. */
  lemma {:induction false} AtLeastAll(groups: seq<Group>, minCount: nat)
    requires forall g :: g in groups ==> g.count >= minCount
    ensures AtLeast(groups, minCount) == groups
  {
    if groups != [] {
      var n := |groups| - 1;
      AtLeastAll(groups[..n], minCount);
      assert groups == groups[..n] + [groups[n]];
    }
  }

  /** `sort_values('mean')` puts the lowest mean first: rank best-first by the negated mean. */
  function NegMean(g: Group): real
  {
    -Mean(g)
  }

  /** `value_counts()` puts the most frequent key first. */
  function Frequency(g: Group): real
  {
    g.count as real
  }

  /**
   * `list` is the first `n` rows of the aggregate of `samples`, cut to the
   * keys with at least `minCount` rows, ordered best-first by `score`: each
   * row is its key's true count and total, keys are distinct, no eligible
   * key left out scores better than a row kept, and only a full list leaves
   * any eligible key out.
   */
  ghost predicate IsTopGroups(list: seq<Group>, samples: seq<Sample>, minCount: nat, n: nat, score: Group -> real)
  {
    && |list| <= n
    && SortedDesc(list, score)
    && DistinctKeys(list)
    && (forall g :: g in list ==> Eligible(samples, g.key, minCount) && g == GroupOf(samples, g.key))
    && (forall k, g :: Eligible(samples, k, minCount) && k !in Keys(list) && g in list
          ==> score(GroupOf(samples, k)) <= score(g))
    && (|list| == n || forall k :: Eligible(samples, k, minCount) ==> k in Keys(list))
  }

  /** Filtering the groups, sorting by `score` and taking `n` yields the top groups. */
  lemma TakeBestGroups(samples: seq<Sample>, minCount: nat, n: nat, score: Group -> real)
    ensures IsTopGroups(TakeBest(AtLeast(GroupBy(samples), minCount), score, n), samples, minCount, n, score)
  {
    var groups := GroupBy(samples);
    var cands := AtLeast(groups, minCount);
    var list := TakeBest(cands, score, n);
    GroupByCorrect(samples);
    AtLeastMembers(groups, minCount);
    forall g | g in cands ensures g == GroupOf(samples, g.key) && Eligible(samples, g.key, minCount) {
    }
    forall g | g in list ensures g in cands {
      assert g in multiset(list);
    }
    forall a, b | 0 <= a < b < |cands| ensures cands[a] != cands[b] {
      assert cands[a].key != cands[b].key;
    }
    forall i, j | 0 <= i < j < |list| ensures list[i].key != list[j].key {
      SubMultisetDistinct(list, cands, i, j);
      assert list[i] in cands && list[j] in cands;
    }
    forall k | Eligible(samples, k, minCount) ensures GroupOf(samples, k) in cands {
      assert k in Keys(groups);
      var g :| g in groups && g.key == k;
      assert g == GroupOf(samples, k);
    }
    forall k, g | Eligible(samples, k, minCount) && k !in Keys(list) && g in list
      ensures score(GroupOf(samples, k)) <= score(g)
    {
      var x := GroupOf(samples, k);
      assert x !in list;
      assert x in multiset(cands) && x !in multiset(list);
      assert x in multiset(cands) - multiset(list);
    }
    if |list| != n {
      forall k | Eligible(samples, k, minCount) ensures k in Keys(list) {
        FullSelection(list, cands, GroupOf(samples, k));
        assert GroupOf(samples, k) in list;
      }
    }
  }
}

=== FILE: grouping.dfy ===
/**
 * `groupby(key)['placement'].agg(['mean', 'count'])`: one group per
 * distinct key with the sum and number of the placements filed under it,
 * built by folding the samples in one at a time.
 */
module Grouping {

  /** One row handed to `groupby`: a key and the placement of its game. */
  datatype Sample = Sample(key: string, placement: int)

  /** One aggregated row: the key, the placement total and the number of rows. */
  datatype Group = Group(key: string, sum: int, count: nat)

  /** `mean` of a group's placements. */
  function Mean(g: Group): real
  {
    if g.count == 0 then 0.0 else g.sum as real / g.count as real
  }

  /** Number of samples filed under `k`. */
  function CountOf(samples: seq<Sample>, k: string): nat
  {
    if samples == [] then 0
    else CountOf(samples[..|samples| - 1], k) + (if samples[|samples| - 1].key == k then 1 else 0)
  }

  /** Sum of the placements filed under `k`. */
  function SumOf(samples: seq<Sample>, k: string): int
  {
    if samples == [] then 0
    else
      var last := samples[|samples| - 1];
      SumOf(samples[..|samples| - 1], k) + (if last.key == k then last.placement else 0)
  }

  predicate DistinctKeys(groups: seq<Group>)
  {
    forall i, j :: 0 <= i < j < |groups| ==> groups[i].key != groups[j].key
  }

  /** The count of the group for `k`, or 0 when there is none. */
  function CountIn(groups: seq<Group>, k: string): nat
  {
    if groups == [] then 0 else if groups[0].key == k then groups[0].count else CountIn(groups[1..], k)
  }

  /** The placement total of the group for `k`, or 0 when there is none. */
  function SumIn(groups: seq<Group>, k: string): int
  {
    if groups == [] then 0 else if groups[0].key == k then groups[0].sum else SumIn(groups[1..], k)
  }

  /** The sum of all group counts. */
  function TotalCount(groups: seq<Group>): nat
  {
    if groups == [] then 0 else groups[0].count + TotalCount(groups[1..])
  }

  /** File one sample: add it to the group of its key, or open a new group at the end. */
  function AddSample(groups: seq<Group>, x: Sample): seq<Group>
  {
    if groups == [] then [Group(x.key, x.placement, 1)]
    else if groups[0].key == x.key then [Group(x.key, groups[0].sum + x.placement, groups[0].count + 1)] + groups[1..]
    else [groups[0]] + AddSample(groups[1..], x)
  }

  /** The groups of `samples`, in order of first appearance. */
  function GroupBy(samples: seq<Sample>): seq<Group>
  {
    if samples == [] then [] else AddSample(GroupBy(samples[..|samples| - 1]), samples[|samples| - 1])
  }

  /** The keys that have a group. */
  function Keys(groups: seq<Group>): set<string>
  {
    set g | g in groups :: g.key
  }

  lemma {:induction false} KeysOfTail(groups: seq<Group>)
    requires groups != []
    ensures Keys(groups) == {groups[0].key} + Keys(groups[1..])
  {
    assert groups == [groups[0]] + groups[1..];
  }

  lemma {:induction false} HeadKeyUnique(groups: seq<Group>)
    requires groups != [] && DistinctKeys(groups)
    ensures groups[0].key !in Keys(groups[1..])
  {
    forall m | 0 <= m < |groups[1..]| ensures groups[1..][m].key != groups[0].key {
      assert groups[1..][m] == groups[m + 1];
    }
  }

  lemma {:induction false} AddSampleShape(groups: seq<Group>, x: Sample)
    requires DistinctKeys(groups) && forall g :: g in groups ==> g.count > 0
    ensures Keys(AddSample(groups, x)) == Keys(groups) + {x.key}
    ensures DistinctKeys(AddSample(groups, x)) && forall g :: g in AddSample(groups, x) ==> g.count > 0
  {
    if groups != [] {
      KeysOfTail(groups);
      HeadKeyUnique(groups);
      var r := AddSample(groups, x);
      KeysOfTail(r);
      if groups[0].key != x.key {
        AddSampleShape(groups[1..], x);
        var rest := AddSample(groups[1..], x);
        forall j | 0 < j < |r| ensures groups[0].key != r[j].key {
          assert r[j] == rest[j - 1];
          assert r[j].key in Keys(rest);
        }
      } else {
        assert r[1..] == groups[1..];
      }
    }
  }

  lemma {:induction false} AddSampleTotals(groups: seq<Group>, x: Sample)
    ensures forall k :: CountIn(AddSample(groups, x), k) == CountIn(groups, k) + (if x.key == k then 1 else 0)
    ensures forall k :: SumIn(AddSample(groups, x), k) == SumIn(groups, k) + (if x.key == k then x.placement else 0)
    ensures TotalCount(AddSample(groups, x)) == TotalCount(groups) + 1
  {
    if groups != [] && groups[0].key != x.key {
      AddSampleTotals(groups[1..], x);
    }
  }

  lemma {:induction false} CountInMember(groups: seq<Group>, g: Group)
    requires DistinctKeys(groups) && g in groups
    ensures CountIn(groups, g.key) == g.count && SumIn(groups, g.key) == g.sum
  {
    if groups[0] != g {
      assert g in groups[1..];
      var m :| 0 <= m < |groups[1..]| && groups[1..][m] == g;
      assert groups[m + 1] == g;
      CountInMember(groups[1..], g);
    }
  }

  lemma {:induction false} CountInAbsent(groups: seq<Group>, k: string)
    requires forall g :: g in groups ==> g.key != k
    ensures CountIn(groups, k) == 0
  {
    if groups != [] {
      CountInAbsent(groups[1..], k);
    }
  }

  /**
   * The groups of `samples` agree with the reference counts and sums: keys
   * are distinct, a key has a group exactly when it has samples, each
   * group's count and total are those of its key's samples, and the
   * counts add up to the number of samples.
   */
  lemma {:induction false} GroupByCorrect(samples: seq<Sample>)
    ensures DistinctKeys(GroupBy(samples))
    ensures forall g :: g in GroupBy(samples) ==>
              g.count == CountOf(samples, g.key) > 0 && g.sum == SumOf(samples, g.key)
    ensures forall k :: k in Keys(GroupBy(samples)) <==> CountOf(samples, k) > 0
    ensures TotalCount(GroupBy(samples)) == |samples|
  {
    GroupByInvariant(samples);
    forall g | g in GroupBy(samples)
      ensures g.count == CountOf(samples, g.key) > 0 && g.sum == SumOf(samples, g.key)
    {
      CountInMember(GroupBy(samples), g);
    }
    forall k | CountOf(samples, k) > 0 ensures k in Keys(GroupBy(samples)) {
      if k !in Keys(GroupBy(samples)) {
        CountInAbsent(GroupBy(samples), k);
      }
    }
  }

  lemma {:induction false} GroupByInvariant(samples: seq<Sample>)
    ensures DistinctKeys(GroupBy(samples)) && forall g :: g in GroupBy(samples) ==> g.count > 0
    ensures forall k :: CountIn(GroupBy(samples), k) == CountOf(samples, k)
    ensures forall k :: SumIn(GroupBy(samples), k) == SumOf(samples, k)
    ensures TotalCount(GroupBy(samples)) == |samples|
  {
    if samples != [] {
      var n := |samples| - 1;
      GroupByInvariant(samples[..n]);
      AddSampleShape(GroupBy(samples[..n]), samples[n]);
      AddSampleTotals(GroupBy(samples[..n]), samples[n]);
    }
  }
}

=== FILE: item_analysis.dfy ===
/**
 * The item analysis (`item_analysis.py`): items are counted once per unit
 * slot over the analysed set's matches, those counted more than ten times
 * are kept, and the ten best by each rate are returned.
 */
module ItemAnalysis {
  import opened Wrappers
  import opened MatchJson
  import opened Records
  import opened Counting
  import opened Aggregate
  import opened Normaliser

  /** An item must appear more than this many times to be ranked. */
  const ItemThreshold: nat := 10

  /** Each ranking keeps this many rows. */
  const TopCount: nat := 10

  /** The unit lists of one match, concatenated: one entry per item per unit slot. */
  function Flatten(lists: seq<seq<string>>): (r: seq<string>)
  {
    if lists == [] then [] else Flatten(lists[..|lists| - 1]) + lists[|lists| - 1]
  }

  /** The flat row counts each item once per unit list holding it, as often as that list does. */
  lemma {:induction false} FlattenCount(lists: seq<seq<string>>, v: string)
    ensures Count(Flatten(lists), v) == Occurrences(lists, v)
  {
    if lists != [] {
      var n := |lists| - 1;
      FlattenCount(lists[..n], v);
      CountAppend(Flatten(lists[..n]), lists[n], v);
    }
  }

  /** Items of each match, one row per match, one entry per unit slot. */
  function ItemRows(records: seq<MatchRecord>): (r: seq<seq<string>>)
    ensures |r| == |records| && forall i :: 0 <= i < |records| ==> r[i] == Flatten(records[i].items)
  {
    seq(|records|, i requires 0 <= i < |records| => Flatten(records[i].items))
  }

  /** In each match's item row, an item counts as often as it occurs over the unit lists. */
  lemma ItemRowsCount(records: seq<MatchRecord>)
    ensures forall i, v :: 0 <= i < |records| ==> Count(ItemRows(records)[i], v) == Occurrences(records[i].items, v)
  {
    forall i, v | 0 <= i < |records|
      ensures Count(ItemRows(records)[i], v) == Occurrences(records[i].items, v)
    {
      FlattenCount(records[i].items, v);
    }
  }

  /**
   * `filter_items`: the same number of unit lists, each the in-order
   * sublist of its original holding only valid items.
   */
  function FilterItems(lists: seq<seq<string>>, valid: set<string>): (r: seq<seq<string>>)
    ensures |r| == |lists|
    ensures forall k :: 0 <= k < |lists| ==> Sublist(r[k], lists[k])
    ensures forall k, x :: 0 <= k < |lists| && x in r[k] ==> x in valid
    ensures forall k, v :: 0 <= k < |lists| && v in valid ==> Count(r[k], v) == Count(lists[k], v)
  {
    seq(|lists|, k requires 0 <= k < |lists| => KeepValid(lists[k], valid))
  }

  /** Tallying the filtered unit lists slot by slot is tallying the filtered flat item row. */
  lemma {:induction false} FlattenFilterItems(lists: seq<seq<string>>, valid: set<string>)
    ensures Flatten(FilterItems(lists, valid)) == KeepValid(Flatten(lists), valid)
  {
    if lists != [] {
      var n := |lists| - 1;
      FlattenFilterItems(lists[..n], valid);
      assert FilterItems(lists, valid)[..n] == FilterItems(lists[..n], valid);
      KeepValidAppend(Flatten(lists[..n]), lists[n], valid);
    }
  }

  lemma {:induction false} KeepValidAppend(a: seq<string>, b: seq<string>, valid: set<string>)
    ensures KeepValid(a + b, valid) == KeepValid(a, valid) + KeepValid(b, valid)
  {
    if b != [] {
      var n := |b| - 1;
      var last := if b[n] in valid then [b[n]] else [];
      KeepValidAppend(a, b[..n], valid);
      assert (a + b)[..|a + b| - 1] == a + b[..n];
      assert (a + b)[|a + b| - 1] == b[n];
      calc {
        KeepValid(a + b, valid);
        KeepValid(a + b[..n], valid) + last;
        (KeepValid(a, valid) + KeepValid(b[..n], valid)) + last;
        KeepValid(a, valid) + (KeepValid(b[..n], valid) + last);
        KeepValid(a, valid) + KeepValid(b, valid);
      }
    } else {
      assert a + b == a;
    }
  }

  /**
   * `run_analysis`: fails as the frame loading does, then when no item is
   * counted more than ten times; otherwise ranks the valid items by
   * top-four and bottom-four rate, ten of each.
   */
  method Run(fetched: seq<Option<RawMatch>>, puuid: string) returns (r: Result<Ranked, Failure>)
    ensures fetched == [] ==> r == Failure(NoMatchIds)
    ensures fetched != [] && |ReadAll(fetched, puuid)| < MinMatches
            ==> r == Failure(InsufficientData(|ReadAll(fetched, puuid)|))
    ensures fetched != [] && |ReadAll(fetched, puuid)| >= MinMatches
            && |OfSet(ReadAll(fetched, puuid), TftSet)| < MinMatches
            ==> r == Failure(InsufficientSetData(|OfSet(ReadAll(fetched, puuid), TftSet)|))
    ensures Loads(fetched, puuid)
            ==> (r == Failure(NoFrequentValues) <==> Frequent(ItemRows(OfSet(ReadAll(fetched, puuid), TftSet)), ItemThreshold) == {})
    ensures r.Success? <==> Loads(fetched, puuid) && Frequent(ItemRows(OfSet(ReadAll(fetched, puuid), TftSet)), ItemThreshold) != {}
    ensures r.Success? ==>
      var records := OfSet(ReadAll(fetched, puuid), TftSet);
      IsRanking(r.value.top, TopRate, Placements(records), ItemRows(records), ItemThreshold, TopCount)
    ensures r.Success? ==>
      var records := OfSet(ReadAll(fetched, puuid), TftSet);
      IsRanking(r.value.bottom, BottomRate, Placements(records), ItemRows(records), ItemThreshold, TopCount)
  {
    var loaded := Load(fetched, puuid);
    if loaded.Failure? {
      return Failure(loaded.error);
    }
    r := RankFrame(loaded.value);
  }

  /**
   * The analysis of a loaded frame: fails when no item is counted more
   * than ten times, otherwise ranks the valid items after `filter_items`.
   */
  method RankFrame(records: seq<MatchRecord>) returns (r: Result<Ranked, Failure>)
    ensures r.Failure? ==> r.error == NoFrequentValues
    ensures r.Success? <==> Frequent(ItemRows(records), ItemThreshold) != {}
    ensures r.Success? ==>
      IsRanking(r.value.top, TopRate, Placements(records), ItemRows(records), ItemThreshold, TopCount)
    ensures r.Success? ==>
      IsRanking(r.value.bottom, BottomRate, Placements(records), ItemRows(records), ItemThreshold, TopCount)
  {
    var rows := ItemRows(records);
    var valid := Frequent(rows, ItemThreshold);
    if valid == {} {
      return Failure(NoFrequentValues);
    }
    var filteredItems := seq(|records|, i requires 0 <= i < |records| => FilterItems(records[i].items, valid));
    var filtered := seq(|records|, i requires 0 <= i < |records| => Flatten(filteredItems[i]));
    forall i | 0 <= i < |records| ensures filtered[i] == KeepValid(rows[i], valid) {
      FlattenFilterItems(records[i].items, valid);
    }
    var ranked := Rank(Placements(records), rows, ItemThreshold, filtered, TopCount);
    r := Success(ranked);
  }
}

=== FILE: match_json.dfy ===
/**
 * The parts of a fetched match body (match-v1 JSON) that the analyses read.
 * Every field read with `[...]` may be missing, so each is an `Option`;
 * a missing field makes that read raise.
 */
module MatchJson {
  import opened Wrappers

  /** An entry of `participants[i]['traits']`. */
  datatype RawTrait = RawTrait(name: Option<string>)

  /** An entry of `participants[i]['units']`. */
  datatype RawUnit = RawUnit(characterId: Option<string>, itemNames: Option<seq<string>>)

  /** An entry of `info.participants`. */
  datatype RawParticipant = RawParticipant(
    puuid: Option<string>,
    placement: Option<int>,
    level: Option<int>,
    traits: Option<seq<RawTrait>>,
    units: Option<seq<RawUnit>>,
    augments: Option<seq<string>>)

  /** A match body: `info.tft_set_number`, `metadata.participants`, `info.participants`. */
  datatype RawMatch = RawMatch(
    setNumber: Option<int>,
    metadataParticipants: Option<seq<string>>,
    participants: Option<seq<RawParticipant>>)
}

=== FILE: normaliser.dfy ===
/**
 * The per-match loop shared by the item, augment and unit analyses: locate
 * the player by position in `metadata.participants`, read the fields of
 * the participant at that position into parallel columns, and skip any
 * match that cannot be read while keeping the columns aligned.
 */
module Normaliser {
  import opened Wrappers
  import opened MatchJson
  import opened Records
  import opened Counting

  /** `[t['name'] for t in traits]`: fails if any trait has no name. */
  function TraitNames(ts: seq<RawTrait>): (r: Option<seq<string>>)
    ensures r.Some? <==> forall k :: 0 <= k < |ts| ==> ts[k].name.Some?
    ensures r.Some? ==> |r.value| == |ts| && forall k :: 0 <= k < |ts| ==> r.value[k] == ts[k].name.value
  {
    if ts == [] then Some([])
    else
      var n := |ts| - 1;
      match (TraitNames(ts[..n]), ts[n].name)
      case (Some(front), Some(last)) => Some(front + [last])
      case _ => None
  }

  /** `[u['character_id'] for u in units]`: fails if any unit has no id. */
  function UnitIds(us: seq<RawUnit>): (r: Option<seq<string>>)
    ensures r.Some? <==> forall k :: 0 <= k < |us| ==> us[k].characterId.Some?
    ensures r.Some? ==> |r.value| == |us| && forall k :: 0 <= k < |us| ==> r.value[k] == us[k].characterId.value
  {
    if us == [] then Some([])
    else
      var n := |us| - 1;
      match (UnitIds(us[..n]), us[n].characterId)
      case (Some(front), Some(last)) => Some(front + [last])
      case _ => None
  }

  /** `[u.get('itemNames', []) for u in units]`: a unit without items contributes `[]`. */
  function UnitItems(us: seq<RawUnit>): (r: seq<seq<string>>)
    ensures |r| == |us|
    ensures forall k :: 0 <= k < |us| ==> r[k] == if us[k].itemNames.Some? then us[k].itemNames.value else []
  {
    seq(|us|, k requires 0 <= k < |us| => match us[k].itemNames case Some(names) => names case None => [])
  }

  /** The first position of `puuid` in `ids`, as the `for pos, ...: if ...: break` search finds it. */
  function PositionOf(ids: seq<string>, puuid: string): (r: Option<nat>)
    ensures r.None? <==> puuid !in ids
    ensures r.Some? ==> r.value < |ids| && ids[r.value] == puuid && puuid !in ids[..r.value]
  {
    if ids == [] then None
    else if ids[0] == puuid then Some(0)
    else match PositionOf(ids[1..], puuid)
      case None => None
      case Some(k) =>
        assert ids[..k + 1] == [ids[0]] + ids[1..][..k];
        Some(k + 1)
  }

  /**
   * The record read from one participant: fails when `placement`, `level`,
   * `traits` (or a trait's name) or `units` (or a unit's id) is missing;
   * `itemNames` and `augments` default to `[]`.
   */
  function Project(p: RawParticipant, setNumber: int): (r: Option<MatchRecord>)
    ensures r.Some? <==>
      && p.placement.Some? && p.level.Some?
      && p.traits.Some? && TraitNames(p.traits.value).Some?
      && p.units.Some? && UnitIds(p.units.value).Some?
    ensures r.Some? ==>
      && r.value.setNumber == setNumber
      && r.value.placement == p.placement.value
      && r.value.level == p.level.value
      && TraitNames(p.traits.value) == Some(r.value.traits)
      && UnitIds(p.units.value) == Some(r.value.units)
      && |r.value.units| == |r.value.items| == |p.units.value|
      && r.value.items == UnitItems(p.units.value)
      && r.value.augments == (if p.augments.Some? then p.augments.value else [])
  {
    if p.placement.None? || p.level.None? || p.traits.None? || p.units.None? then None
    else match (TraitNames(p.traits.value), UnitIds(p.units.value))
      case (Some(traits), Some(units)) =>
        var augments := match p.augments case Some(a) => a case None => [];
        Some(MatchRecord(setNumber, p.placement.value, p.level.value, traits, units,
                         UnitItems(p.units.value), augments))
      case _ => None
  }

  /** How the `try` block of one fetched match ends. */
  datatype Attempt = Read(record: MatchRecord) | PlayerAbsent | Raised

  /**
   * The match names its set and its participants, the player is among them,
   * and the participant at the player's position can be read.
   */
  predicate Readable(m: RawMatch, puuid: string)
  {
    && m.setNumber.Some? && m.metadataParticipants.Some? && m.participants.Some?
    && PositionOf(m.metadataParticipants.value, puuid).Some?
    && PositionOf(m.metadataParticipants.value, puuid).value < |m.participants.value|
    && Project(m.participants.value[PositionOf(m.metadataParticipants.value, puuid).value], m.setNumber.value).Some?
  }

  /** The outcome of the `try` block for one fetched match body. */
  function Try(m: RawMatch, puuid: string): (r: Attempt)
    ensures r.Read? <==> Readable(m, puuid)
    ensures r.PlayerAbsent? <==>
      m.setNumber.Some? && m.metadataParticipants.Some? && puuid !in m.metadataParticipants.value
    ensures r.Read? ==>
      && m.setNumber.Some? && m.metadataParticipants.Some? && m.participants.Some?
      && var k := PositionOf(m.metadataParticipants.value, puuid).value;
         && k < |m.participants.value|
         && m.metadataParticipants.value[k] == puuid
         && Project(m.participants.value[k], m.setNumber.value) == Some(r.record)
  {
    if m.setNumber.None? || m.metadataParticipants.None? then Raised
    else match PositionOf(m.metadataParticipants.value, puuid)
      case None => PlayerAbsent
      case Some(k) =>
        if m.participants.None? || k >= |m.participants.value| then Raised
        else match Project(m.participants.value[k], m.setNumber.value)
          case Some(rec) => Read(rec)
          case None => Raised
  }

  /** The records of the fetched matches that were read, in fetch order; `None` is a failed fetch. */
  function ReadAll(fetched: seq<Option<RawMatch>>, puuid: string): seq<MatchRecord>
  {
    if fetched == [] then []
    else
      var n := |fetched| - 1;
      ReadAll(fetched[..n], puuid)
        + match fetched[n]
          case Some(m) => (match Try(m, puuid) case Read(rec) => [rec] case _ => [])
          case None => []
  }

  /** Every read record has one item list per unit. */
  lemma {:induction false} ReadAllUnitsHaveItems(fetched: seq<Option<RawMatch>>, puuid: string)
    ensures forall rec :: rec in ReadAll(fetched, puuid) ==> |rec.units| == |rec.items|
  {
    if fetched != [] {
      ReadAllUnitsHaveItems(fetched[..|fetched| - 1], puuid);
    }
  }

  /** The `data` dictionary of parallel columns. */
  datatype Columns = Columns(
    setNumber: seq<int>,
    placement: seq<int>,
    level: seq<int>,
    traits: seq<seq<string>>,
    units: seq<seq<string>>,
    items: seq<seq<seq<string>>>,
    augments: seq<seq<string>>)

  /** All columns have the same length, as `pd.DataFrame(data)` requires. */
  predicate Aligned(d: Columns)
  {
    |d.setNumber| == |d.placement| == |d.level| == |d.traits| == |d.units| == |d.items| == |d.augments|
  }

  /** Row `i` of the columns. */
  function RowAt(d: Columns, i: nat): MatchRecord
    requires Aligned(d) && i < |d.placement|
  {
    MatchRecord(d.setNumber[i], d.placement[i], d.level[i], d.traits[i], d.units[i], d.items[i], d.augments[i])
  }

  /** The rows of the frame built from the columns. */
  function Rows(d: Columns): (r: seq<MatchRecord>)
    requires Aligned(d)
    ensures |r| == |d.placement|
  {
    seq(|d.placement|, i requires 0 <= i < |d.placement| => RowAt(d, i))
  }

  /**
   * Appending a read record to every column but `set_number`, whose entry
   * for that match was pushed already, adds exactly that record as a row.
   */
  lemma AppendedRow(before: Columns, after: Columns, rec: MatchRecord)
    requires Aligned(before)
    requires after.setNumber == before.setNumber + [rec.setNumber]
    requires after.placement == before.placement + [rec.placement]
    requires after.level == before.level + [rec.level]
    requires after.traits == before.traits + [rec.traits]
    requires after.units == before.units + [rec.units]
    requires after.items == before.items + [rec.items]
    requires after.augments == before.augments + [rec.augments]
    ensures Aligned(after) && Rows(after) == Rows(before) + [rec]
  {
    assert RowAt(after, |before.placement|) == rec;
  }

  /**
   * The match loop. A failed fetch is skipped. The set number is pushed
   * first; a player absent from the match pops it, and so does any later
   * failure, through the `len(set_number) > len(placement)` check; a
   * read match appends one entry to every column.
   */
  method Collect(fetched: seq<Option<RawMatch>>, puuid: string) returns (data: Columns, successful: nat)
    ensures Aligned(data) && successful == |data.placement|
    ensures Rows(data) == ReadAll(fetched, puuid)
  {
    data := Columns([], [], [], [], [], [], []);
    successful := 0;
    var i := 0;
    while i < |fetched|
      invariant 0 <= i <= |fetched|
      invariant Aligned(data) && successful == |data.placement|
      invariant Rows(data) == ReadAll(fetched[..i], puuid)
    {
      assert fetched[..i + 1][..i] == fetched[..i];
      var fetchedMatch := fetched[i];
      i := i + 1;
      if fetchedMatch.None? {
        continue;
      }
      var m := fetchedMatch.value;
      var attempt := Try(m, puuid);
      ghost var before := data;
      if m.setNumber.Some? {
        data := data.(setNumber := data.setNumber + [m.setNumber.value]);
      }
      match attempt {
        case PlayerAbsent =>
          data := data.(setNumber := data.setNumber[..|data.setNumber| - 1]);
        case Raised =>
          if |data.setNumber| > |data.placement| {
            data := data.(setNumber := data.setNumber[..|data.setNumber| - 1]);
          }
        case Read(rec) =>
          data := data.(placement := data.placement + [rec.placement], level := data.level + [rec.level],
                        traits := data.traits + [rec.traits], units := data.units + [rec.units],
                        items := data.items + [rec.items], augments := data.augments + [rec.augments]);
          AppendedRow(before, data, rec);
          successful := successful + 1;
      }
    }
    assert fetched[..i] == fetched;
  }

  /** `df[df['set_number'] == setNumber]`: the records of one set, in order. */
  function OfSet(records: seq<MatchRecord>, setNumber: int): (r: seq<MatchRecord>)
    ensures |r| <= |records|
    ensures Sublist(r, records)
    ensures forall x :: x in r ==> x in records && x.setNumber == setNumber
    ensures forall x :: x in records && x.setNumber == setNumber ==> x in r
    ensures forall x :: multiset(r)[x] == if x.setNumber == setNumber then multiset(records)[x] else 0
  {
    if records == [] then []
    else
      var n := |records| - 1;
      var front := OfSet(records[..n], setNumber);
      assert records == records[..n] + [records[n]];
      assert multiset(records) == multiset(records[..n]) + multiset{records[n]};
      if records[n].setNumber == setNumber then
        assert (front + [records[n]])[..|front|] == front;
        front + [records[n]]
      else
        assert front != [] ==> front[|front| - 1] != records[n];
        front
  }

  /** The fetched matches yield a frame: there are match ids, and at least three read matches of the set. */
  predicate Loads(fetched: seq<Option<RawMatch>>, puuid: string)
  {
    fetched != [] && |ReadAll(fetched, puuid)| >= MinMatches && |OfSet(ReadAll(fetched, puuid), TftSet)| >= MinMatches
  }

  /**
   * From the fetched matches to the analysed frame: no match ids fails,
   * fewer than three read matches fails, fewer than three of them from the
   * analysed set fails; otherwise the read records of that set.
   */
  method Load(fetched: seq<Option<RawMatch>>, puuid: string) returns (r: Result<seq<MatchRecord>, Failure>)
    ensures fetched == [] ==> r == Failure(NoMatchIds)
    ensures fetched != [] && |ReadAll(fetched, puuid)| < MinMatches
            ==> r == Failure(InsufficientData(|ReadAll(fetched, puuid)|))
    ensures fetched != [] && |ReadAll(fetched, puuid)| >= MinMatches
            && |OfSet(ReadAll(fetched, puuid), TftSet)| < MinMatches
            ==> r == Failure(InsufficientSetData(|OfSet(ReadAll(fetched, puuid), TftSet)|))
    ensures r.Success? <==> Loads(fetched, puuid)
    ensures r.Success? ==> r.value == OfSet(ReadAll(fetched, puuid), TftSet) && |r.value| >= MinMatches
  {
    if fetched == [] {
      return Failure(NoMatchIds);
    }
    var data, successful := Collect(fetched, puuid);
    if successful < MinMatches {
      return Failure(InsufficientData(successful));
    }
    var frame := OfSet(Rows(data), TftSet);
    if |frame| < MinMatches {
      return Failure(InsufficientSetData(|frame|));
    }
    r := Success(frame);
  }

  /** The `placement` column of the frame. */
  function Placements(records: seq<MatchRecord>): (r: seq<int>)
    ensures |r| == |records| && forall i :: 0 <= i < |records| ==> r[i] == records[i].placement
  {
    seq(|records|, i requires 0 <= i < |records| => records[i].placement)
  }
}

=== FILE: ranking.dfy ===
/**
 * `sort_values(key, ascending=False).head(n)`: order rows by a real-valued
 * key, best first, and keep the first `n`. The order among rows with equal
 * keys is left open, as pandas' default sort is not stable.
 */
module Ranking {

  /** Non-increasing in `key`. */
  predicate SortedDesc<T>(s: seq<T>, key: T -> real)
  {
    forall i, j :: 0 <= i < j < |s| ==> key(s[j]) <= key(s[i])
  }

  function Insert<T>(x: T, s: seq<T>, key: T -> real): seq<T>
  {
    if s == [] || key(s[0]) <= key(x) then [x] + s
    else [s[0]] + Insert(x, s[1..], key)
  }

  lemma {:induction false} InsertCorrect<T>(x: T, s: seq<T>, key: T -> real)
    requires SortedDesc(s, key)
    ensures multiset(Insert(x, s, key)) == multiset(s) + multiset{x}
    ensures SortedDesc(Insert(x, s, key), key)
  {
    if s != [] && key(x) < key(s[0]) {
      var t := Insert(x, s[1..], key);
      InsertCorrect(x, s[1..], key);
      assert s == [s[0]] + s[1..];
      forall k | 0 <= k < |t| ensures key(t[k]) <= key(s[0]) {
        HeadIsBest(s, t[k], key);
        assert t[k] in multiset(t);
      }
      ConsSorted(s[0], t, key);
    }
  }

  /** Every element of a sorted sequence, and anything keyed lower than its head, is keyed at most its head. */
  lemma HeadIsBest<T>(s: seq<T>, y: T, key: T -> real)
    requires s != [] && SortedDesc(s, key)
    ensures y in multiset(s[1..]) ==> key(y) <= key(s[0])
  {
    if y in multiset(s[1..]) {
      var m :| 0 <= m < |s[1..]| && s[1..][m] == y;
      assert s[m + 1] == y;
    }
  }

  /** A head keyed at least as high as every element of a sorted tail gives a sorted sequence. */
  lemma ConsSorted<T>(h: T, t: seq<T>, key: T -> real)
    requires SortedDesc(t, key) && forall k :: 0 <= k < |t| ==> key(t[k]) <= key(h)
    ensures SortedDesc([h] + t, key)
  {
    forall i, j | 0 <= i < j < |[h] + t| ensures key(([h] + t)[j]) <= key(([h] + t)[i]) {
      assert ([h] + t)[j] == t[j - 1];
      if i > 0 {
        assert ([h] + t)[i] == t[i - 1];
      }
    }
  }

  /** Insertion sort, best key first. */
  function SortDesc<T>(s: seq<T>, key: T -> real): seq<T>
  {
    if s == [] then [] else Insert(s[0], SortDesc(s[1..], key), key)
  }

  lemma {:induction false} SortDescCorrect<T>(s: seq<T>, key: T -> real)
    ensures multiset(SortDesc(s, key)) == multiset(s)
    ensures SortedDesc(SortDesc(s, key), key)
  {
    if s != [] {
      SortDescCorrect(s[1..], key);
      InsertCorrect(s[0], SortDesc(s[1..], key), key);
      assert s == [s[0]] + s[1..];
    }
  }

  /** A sorted sequence cut at `m`: nothing after the cut beats anything before it. */
  lemma PrefixIsBest<T>(sorted: seq<T>, key: T -> real, m: nat)
    requires SortedDesc(sorted, key) && m <= |sorted|
    ensures forall x, y :: x in sorted[..m] && y in multiset(sorted) - multiset(sorted[..m]) ==> key(y) <= key(x)
  {
    assert sorted == sorted[..m] + sorted[m..];
    assert multiset(sorted) == multiset(sorted[..m]) + multiset(sorted[m..]);
    forall x, y | x in sorted[..m] && y in multiset(sorted) - multiset(sorted[..m])
      ensures key(y) <= key(x)
    {
      var i :| 0 <= i < m && sorted[..m][i] == x;
      assert y in multiset(sorted[m..]);
      var j :| 0 <= j < |sorted| - m && sorted[m..][j] == y;
      assert sorted[m + j] == y;
    }
  }

  /**
   * The `n` best rows of `s` by `key`: a sorted selection from `s` of
   * `min(n, |s|)` rows such that no row left out has a better key than a row kept.
   */
  function TakeBest<T(==)>(s: seq<T>, key: T -> real, n: nat): (r: seq<T>)
    ensures |r| == if n < |s| then n else |s|
    ensures SortedDesc(r, key)
    ensures multiset(r) <= multiset(s)
    ensures forall x, y :: x in r && y in multiset(s) - multiset(r) ==> key(y) <= key(x)
  {
    var sorted := SortDesc(s, key);
    SortDescCorrect(s, key);
    assert |sorted| == |s| by {
      assert |multiset(sorted)| == |multiset(s)|;
    }
    var m := if n < |s| then n else |s|;
    PrefixIsBest(sorted, key, m);
    assert sorted == sorted[..m] + sorted[m..];
    sorted[..m]
  }

  lemma {:induction false} DistinctMultiplicity<T>(stats: seq<T>, x: T)
    requires forall a, b :: 0 <= a < b < |stats| ==> stats[a] != stats[b]
    ensures multiset(stats)[x] <= 1
  {
    if stats != [] {
      var n := |stats| - 1;
      DistinctMultiplicity(stats[..n], x);
      assert stats == stats[..n] + [stats[n]];
      assert stats[n] !in stats[..n];
    }
  }

  lemma RepeatedTwice<T>(list: seq<T>, i: nat, j: nat)
    requires 0 <= i < j < |list|
    ensures list[i] == list[j] ==> multiset(list)[list[i]] >= 2
  {
    assert list == list[..j] + [list[j]] + list[j + 1..];
    assert list[i] in list[..j];
  }

  /** A sub-multiset of a sequence without repeats has no repeats either. */
  lemma SubMultisetDistinct<T>(list: seq<T>, stats: seq<T>, i: nat, j: nat)
    requires forall a, b :: 0 <= a < b < |stats| ==> stats[a] != stats[b]
    requires multiset(list) <= multiset(stats)
    requires 0 <= i < j < |list|
    ensures list[i] != list[j]
  {
    DistinctMultiplicity(stats, list[i]);
    RepeatedTwice(list, i, j);
  }

  /** A selection with as many rows as the whole is the whole. */
  lemma FullSelection<T>(list: seq<T>, stats: seq<T>, x: T)
    requires multiset(list) <= multiset(stats) && |list| == |stats|
    requires x in stats
    ensures x in list
  {
    var d := multiset(stats) - multiset(list);
    assert multiset(stats) == multiset(list) + d;
    assert |d| == 0;
    assert x in multiset(stats);
  }
}

=== FILE: records.dfy ===
/** The normalised per-match record, the failures the analyses raise, and the set they keep. */
module Records {

  /** The only competition set whose matches are analysed (`TFT_SET`). */
  const TftSet: int := 14

  /** The minimum number of matches, before and after the set filter. */
  const MinMatches: nat := 3

  /**
   * One successfully read match of the subject player: one row of the
   * parallel `data` columns. `items[k]` is the item list of `units[k]`.
   */
  datatype MatchRecord = MatchRecord(
    setNumber: int,
    placement: int,
    level: int,
    traits: seq<string>,
    units: seq<string>,
    items: seq<seq<string>>,
    augments: seq<string>)

  /** The exceptions `run_analysis` raises, one constructor per cause. */
  datatype Failure =
    | NoMatchIds                          // "No match IDs found"
    | SubjectNotInMatch(matchIndex: nat)  // `next(...)` found no participant with the player's id
    | MalformedMatch(matchIndex: nat)     // a field read by `[...]` was missing
    | InsufficientData(found: nat)        // fewer than 3 matches were read
    | InsufficientSetData(found: nat)     // fewer than 3 of them belong to the analysed set
    | NoFrequentValues                    // nothing passed the frequency threshold
    | NoUnitRows                          // no unit was fielded in any analysed match
}

=== FILE: text.dfy ===
/**
 * String operations the unit report relies on: Python's ordering of `str`
 * (by code point, a proper prefix first), `sorted`, `' | '.join` and
 * `str.replace(pattern, '')`.
 */
module Text {

  /** `a <= b` on Python strings. */
  predicate LexLe(a: string, b: string)
  {
    a == [] || (b != [] && (a[0] < b[0] || (a[0] == b[0] && LexLe(a[1..], b[1..]))))
  }

  lemma {:induction false} LexLeReflexive(a: string)
    ensures LexLe(a, a)
  {
    if a != [] {
      LexLeReflexive(a[1..]);
    }
  }

  lemma {:induction false} LexLeTotal(a: string, b: string)
    ensures LexLe(a, b) || LexLe(b, a)
  {
    if a != [] && b != [] && a[0] == b[0] {
      LexLeTotal(a[1..], b[1..]);
    }
  }

  lemma {:induction false} LexLeTransitive(a: string, b: string, c: string)
    requires LexLe(a, b) && LexLe(b, c)
    ensures LexLe(a, c)
  {
    if a != [] && b != [] && c != [] && a[0] == b[0] == c[0] {
      LexLeTransitive(a[1..], b[1..], c[1..]);
    }
  }

  lemma {:induction false} LexLeAntisymmetric(a: string, b: string)
    requires LexLe(a, b) && LexLe(b, a)
    ensures a == b
  {
    if a != [] && b != [] {
      LexLeAntisymmetric(a[1..], b[1..]);
      assert a == [a[0]] + a[1..] && b == [b[0]] + b[1..];
    }
  }

  /** Non-decreasing in Python's string order. */
  predicate Sorted(s: seq<string>)
  {
    forall i, j :: 0 <= i < j < |s| ==> LexLe(s[i], s[j])
  }

  function InsertString(x: string, s: seq<string>): seq<string>
  {
    if s == [] || LexLe(x, s[0]) then [x] + s else [s[0]] + InsertString(x, s[1..])
  }

  lemma {:induction false} InsertStringCorrect(x: string, s: seq<string>)
    requires Sorted(s)
    ensures multiset(InsertString(x, s)) == multiset(s) + multiset{x}
    ensures Sorted(InsertString(x, s))
  {
    if s == [] {
    } else if LexLe(x, s[0]) {
      forall j | 0 < j < |s| ensures LexLe(x, s[j]) {
        LexLeTransitive(x, s[0], s[j]);
      }
    } else {
      LexLeTotal(x, s[0]);
      InsertStringCorrect(x, s[1..]);
      assert s == [s[0]] + s[1..];
      var t := InsertString(x, s[1..]);
      forall k | 0 <= k < |t| ensures LexLe(s[0], t[k]) {
        assert t[k] in multiset(t);
        assert t[k] == x || t[k] in multiset(s[1..]);
      }
    }
  }

  /** `sorted(names)`. */
  function SortStrings(s: seq<string>): (r: seq<string>)
    ensures multiset(r) == multiset(s)
    ensures Sorted(r)
  {
    if s == [] then []
    else
      var rest := SortStrings(s[1..]);
      InsertStringCorrect(s[0], rest);
      assert s == [s[0]] + s[1..];
      InsertString(s[0], rest)
  }

  lemma SortedHeads(a: seq<string>, b: seq<string>)
    requires Sorted(a) && Sorted(b) && multiset(a) == multiset(b) && a != [] && b != []
    ensures a[0] == b[0]
  {
    assert a[0] in multiset(b) && b[0] in multiset(a);
    var i :| 0 <= i < |b| && b[i] == a[0];
    var j :| 0 <= j < |a| && a[j] == b[0];
    assert LexLe(b[0], a[0]) by { if i > 0 { assert LexLe(b[0], b[i]); } else { LexLeReflexive(a[0]); } }
    assert LexLe(a[0], b[0]) by { if j > 0 { assert LexLe(a[0], a[j]); } else { LexLeReflexive(b[0]); } }
    LexLeAntisymmetric(a[0], b[0]);
  }

  lemma SameTails(a: seq<string>, b: seq<string>)
    requires a != [] && b != [] && a[0] == b[0] && multiset(a) == multiset(b)
    ensures multiset(a[1..]) == multiset(b[1..])
  {
    assert a == [a[0]] + a[1..] && b == [b[0]] + b[1..];
    assert multiset(a[1..]) == multiset(a) - multiset{a[0]};
    assert multiset(b[1..]) == multiset(b) - multiset{a[0]};
  }

  /** Two sorted lists holding the same strings are the same list. */
  lemma {:induction false} SortedUnique(a: seq<string>, b: seq<string>)
    requires Sorted(a) && Sorted(b) && multiset(a) == multiset(b)
    ensures a == b
  {
    assert |b| == |a| by { assert |multiset(a)| == |multiset(b)|; }
    if a != [] {
      SortedHeads(a, b);
      SameTails(a, b);
      SortedUnique(a[1..], b[1..]);
      assert a == [a[0]] + a[1..] && b == [b[0]] + b[1..];
    }
  }

  /** Sorting depends only on which strings there are, not on their order. */
  lemma SortIgnoresOrder(a: seq<string>, b: seq<string>)
    requires multiset(a) == multiset(b)
    ensures SortStrings(a) == SortStrings(b)
  {
    SortedUnique(SortStrings(a), SortStrings(b));
  }

  /** `sep.join(parts)`. */
  function Join(parts: seq<string>, sep: string): (r: string)
    ensures |parts| == 1 ==> r == parts[0]
  {
    if parts == [] then ""
    else if |parts| == 1 then parts[0]
    else parts[0] + sep + Join(parts[1..], sep)
  }

  /** `s` starts with `pat`. */
  predicate StartsWith(s: string, pat: string)
  {
    |pat| <= |s| && s[..|pat|] == pat
  }

  /** `pat` occurs somewhere in `s`. */
  predicate Occurs(s: string, pat: string)
  {
    exists i :: 0 <= i <= |s| && StartsWith(s[i..], pat)
  }

  /**
   * `s.replace(pat, '')` for a non-empty `pat`: scanning left to right,
   * every occurrence found is removed and the scan goes on after it.
   */
  function RemoveAll(s: string, pat: string): (r: string)
    requires pat != []
    ensures |r| <= |s|
    decreases |s|
  {
    if s == [] then []
    else if StartsWith(s, pat) then RemoveAll(s[|pat|..], pat)
    else [s[0]] + RemoveAll(s[1..], pat)
  }

  /** A string without the pattern is left alone. */
  lemma {:induction false} RemoveAllAbsent(s: string, pat: string)
    requires pat != [] && !Occurs(s, pat)
    ensures RemoveAll(s, pat) == s
    decreases |s|
  {
    if s != [] {
      assert !StartsWith(s, pat) by { assert s[0..] == s; }
      assert !Occurs(s[1..], pat) by {
        forall i | 0 <= i <= |s[1..]| ensures !StartsWith(s[1..][i..], pat) {
          assert s[1..][i..] == s[i + 1..];
        }
      }
      RemoveAllAbsent(s[1..], pat);
    }
  }

  /** The pattern at the front of a string is removed. */
  lemma RemoveAllPrefix(s: string, pat: string)
    requires pat != []
    ensures RemoveAll(pat + s, pat) == RemoveAll(s, pat)
  {
    assert (pat + s)[..|pat|] == pat;
    assert (pat + s)[|pat|..] == s;
  }
}

=== FILE: trait_analysis.dfy ===
/**
 * The trait analysis (`analysis.py`): the player's participant entry is
 * found inline by `puuid`; any match that cannot be read aborts the whole
 * analysis; traits counted more than ten times are ranked by top-four and
 * bottom-four rate.
 */
module TraitAnalysis {
  import opened Wrappers
  import opened MatchJson
  import opened Records
  import opened Counting
  import opened Ranking
  import opened Aggregate
  import opened Normaliser

  /** A trait must appear more than this many times to be ranked. */
  const TraitThreshold: nat := 10

  /** Each ranking keeps this many rows. */
  const TopCount: nat := 10

  /** What one match contributes: the player's placement and trait names. */
  datatype InlineRow = InlineRow(placement: int, traits: seq<string>)

  /**
   * `next(p for p in participants if p['puuid'] == puuid)`: the first
   * participant carrying the player's id. A participant without `puuid`
   * met before it raises, and so does an exhausted search.
   */
  function LocateInline(ps: seq<RawParticipant>, puuid: string, matchIndex: nat): (r: Result<RawParticipant, Failure>)
    ensures r.Success? ==> r.value in ps && r.value.puuid == Some(puuid)
    ensures r.Failure? ==> r.error in {SubjectNotInMatch(matchIndex), MalformedMatch(matchIndex)}
  {
    if ps == [] then Failure(SubjectNotInMatch(matchIndex))
    else if ps[0].puuid.None? then Failure(MalformedMatch(matchIndex))
    else if ps[0].puuid == Some(puuid) then Success(ps[0])
    else LocateInline(ps[1..], puuid, matchIndex)
  }

  /** `ps[k]` carries the player's id, and every participant before it carries another id. */
  predicate FirstWithId(ps: seq<RawParticipant>, puuid: string, k: nat)
  {
    k < |ps| && ps[k].puuid == Some(puuid)
    && forall j :: 0 <= j < k ==> ps[j].puuid.Some? && ps[j].puuid != Some(puuid)
  }

  lemma FirstWithIdShift(ps: seq<RawParticipant>, puuid: string, k: nat)
    requires ps != [] && ps[0].puuid.Some? && ps[0].puuid != Some(puuid)
    ensures FirstWithId(ps[1..], puuid, k) <==> FirstWithId(ps, puuid, k + 1)
  {
    if FirstWithId(ps[1..], puuid, k) {
      forall j | 0 < j < k + 1 ensures ps[j] == ps[1..][j - 1] { }
    }
    if FirstWithId(ps, puuid, k + 1) {
      forall j | 0 <= j < k ensures ps[1..][j] == ps[j + 1] { }
    }
  }

  /**
   * The search succeeds exactly when a participant with the player's id
   * comes before any participant without an id, and it returns the first
   * participant with the player's id.
   */
  lemma {:induction false} LocateInlineFinds(ps: seq<RawParticipant>, puuid: string, matchIndex: nat)
    ensures LocateInline(ps, puuid, matchIndex).Success? <==> exists k: nat :: FirstWithId(ps, puuid, k)
    ensures LocateInline(ps, puuid, matchIndex).Success? ==>
              exists k: nat :: FirstWithId(ps, puuid, k) && ps[k] == LocateInline(ps, puuid, matchIndex).value
  {
    if ps == [] {
    } else if ps[0].puuid.None? {
      assert forall k: nat :: !FirstWithId(ps, puuid, k);
    } else if ps[0].puuid == Some(puuid) {
      assert FirstWithId(ps, puuid, 0);
    } else {
      var tail := ps[1..];
      LocateInlineFinds(tail, puuid, matchIndex);
      assert !FirstWithId(ps, puuid, 0);
      if k: nat :| FirstWithId(ps, puuid, k) {
        FirstWithIdShift(ps, puuid, k - 1);
      }
      if k: nat :| FirstWithId(tail, puuid, k) && tail[k] == LocateInline(tail, puuid, matchIndex).value {
        FirstWithIdShift(ps, puuid, k);
      }
    }
  }

  /** The search reports the player missing exactly when every participant has another id. */
  lemma {:induction false} LocateInlineAbsent(ps: seq<RawParticipant>, puuid: string, matchIndex: nat)
    ensures LocateInline(ps, puuid, matchIndex) == Failure(SubjectNotInMatch(matchIndex)) <==>
              forall k :: 0 <= k < |ps| ==> ps[k].puuid.Some? && ps[k].puuid != Some(puuid)
  {
    if ps != [] && ps[0].puuid.Some? && ps[0].puuid != Some(puuid) {
      LocateInlineAbsent(ps[1..], puuid, matchIndex);
      assert forall k :: 1 <= k < |ps| ==> ps[k] == ps[1..][k - 1];
    }
  }

  /**
   * The body of the match loop for one match: find the player, then read
   * `placement` and the `name` of every trait; a missing field raises.
   */
  function ReadInline(m: RawMatch, puuid: string, matchIndex: nat): (r: Result<InlineRow, Failure>)
    ensures r.Success? <==>
      && m.participants.Some?
      && var p := LocateInline(m.participants.value, puuid, matchIndex);
         && p.Success? && p.value.placement.Some?
         && p.value.traits.Some? && TraitNames(p.value.traits.value).Some?
    ensures r.Failure? ==> r.error in {SubjectNotInMatch(matchIndex), MalformedMatch(matchIndex)}
    ensures m.participants.Some? && LocateInline(m.participants.value, puuid, matchIndex).Failure?
            ==> r == Failure(LocateInline(m.participants.value, puuid, matchIndex).error)
    ensures r.Failure? && !(m.participants.Some? && LocateInline(m.participants.value, puuid, matchIndex).Failure?)
            ==> r.error == MalformedMatch(matchIndex)
    ensures r.Success? ==>
      && m.participants.Some?
      && var p := LocateInline(m.participants.value, puuid, matchIndex);
         && p.Success? && p.value.placement == Some(r.value.placement)
         && p.value.traits.Some? && TraitNames(p.value.traits.value) == Some(r.value.traits)
  {
    if m.participants.None? then Failure(MalformedMatch(matchIndex))
    else match LocateInline(m.participants.value, puuid, matchIndex)
      case Failure(e) => Failure(e)
      case Success(p) =>
        if p.placement.None? || p.traits.None? then Failure(MalformedMatch(matchIndex))
        else match TraitNames(p.traits.value)
          case None => Failure(MalformedMatch(matchIndex))
          case Some(names) => Success(InlineRow(p.placement.value, names))
  }

  /** Every match can be read. */
  predicate AllRead(matches: seq<RawMatch>, puuid: string)
  {
    forall i :: 0 <= i < |matches| ==> ReadInline(matches[i], puuid, i).Success?
  }

  /** Match `i` is the first that cannot be read, and `e` is why. */
  predicate FirstUnreadable(matches: seq<RawMatch>, puuid: string, i: nat, e: Failure)
  {
    && i < |matches|
    && (forall k :: 0 <= k < i ==> ReadInline(matches[k], puuid, k).Success?)
    && ReadInline(matches[i], puuid, i) == Failure(e)
  }

  /** There is only one first unreadable match, so the error it raises is determined. */
  lemma FirstUnreadableUnique(matches: seq<RawMatch>, puuid: string, i: nat, e: Failure, j: nat, e': Failure)
    requires FirstUnreadable(matches, puuid, i, e) && FirstUnreadable(matches, puuid, j, e')
    ensures i == j && e == e'
  {
  }

  /** The `placement` column, when every match is read. */
  function InlinePlacements(matches: seq<RawMatch>, puuid: string): (r: seq<int>)
    requires AllRead(matches, puuid)
    ensures |r| == |matches|
  {
    seq(|matches|, i requires 0 <= i < |matches| && AllRead(matches, puuid) => ReadInline(matches[i], puuid, i).value.placement)
  }

  /** The `traits` column, when every match is read. */
  function InlineTraits(matches: seq<RawMatch>, puuid: string): (r: seq<seq<string>>)
    requires AllRead(matches, puuid)
    ensures |r| == |matches|
  {
    seq(|matches|, i requires 0 <= i < |matches| && AllRead(matches, puuid) => ReadInline(matches[i], puuid, i).value.traits)
  }

  /**
   * The match loop: append the player's placement and trait names for every
   * match, in order; the first match that cannot be read aborts, and no
   * match is skipped.
   */
  method CollectInline(matches: seq<RawMatch>, puuid: string)
    returns (r: Result<(seq<int>, seq<seq<string>>), Failure>)
    ensures r.Success? <==> AllRead(matches, puuid)
    ensures r.Success? ==> r.value.0 == InlinePlacements(matches, puuid) && r.value.1 == InlineTraits(matches, puuid)
    ensures r.Failure? ==> exists i: nat :: FirstUnreadable(matches, puuid, i, r.error)
  {
    var placements: seq<int> := [];
    var traits: seq<seq<string>> := [];
    var i := 0;
    while i < |matches|
      invariant 0 <= i <= |matches| && |placements| == |traits| == i
      invariant forall k :: 0 <= k < i ==> ReadInline(matches[k], puuid, k).Success?
      invariant forall k :: 0 <= k < i ==> placements[k] == ReadInline(matches[k], puuid, k).value.placement
      invariant forall k :: 0 <= k < i ==> traits[k] == ReadInline(matches[k], puuid, k).value.traits
    {
      var row := ReadInline(matches[i], puuid, i);
      if row.Failure? {
        assert FirstUnreadable(matches, puuid, i, row.error);
        return Failure(row.error);
      }
      placements := placements + [row.value.placement];
      traits := traits + [row.value.traits];
      i := i + 1;
    }
    r := Success((placements, traits));
  }

  /**
   * `run_analysis`: any unreadable match fails the analysis; otherwise the
   * analysis fails exactly when no trait appears more than ten times (the
   * empty summary frame has no rate column to sort by), and else returns
   * the ten best traits by top-four rate and by bottom-four rate.
   */
  method Run(matches: seq<RawMatch>, puuid: string) returns (r: Result<Ranked, Failure>)
    ensures !AllRead(matches, puuid) ==> r.Failure? && r.error != NoFrequentValues
    ensures !AllRead(matches, puuid) ==> exists i: nat :: FirstUnreadable(matches, puuid, i, r.error)
    ensures AllRead(matches, puuid) ==>
      (r.Failure? <==> Frequent(InlineTraits(matches, puuid), TraitThreshold) == {})
    ensures AllRead(matches, puuid) ==>
      (r == Failure(NoFrequentValues) <==> Frequent(InlineTraits(matches, puuid), TraitThreshold) == {})
    ensures r.Success? ==> AllRead(matches, puuid)
    ensures r.Success? && AllRead(matches, puuid) ==>
      IsRanking(r.value.top, TopRate, InlinePlacements(matches, puuid), InlineTraits(matches, puuid),
                TraitThreshold, TopCount)
    ensures r.Success? && AllRead(matches, puuid) ==>
      IsRanking(r.value.bottom, BottomRate, InlinePlacements(matches, puuid), InlineTraits(matches, puuid),
                TraitThreshold, TopCount)
  {
    var collected := CollectInline(matches, puuid);
    if collected.Failure? {
      return Failure(collected.error);
    }
    var (placements, traits) := collected.value;
    var valid := Frequent(traits, TraitThreshold);
    var filtered := KeepValidRows(traits, valid);
    if valid == {} {
      return Failure(NoFrequentValues);
    }
    var ranked := Rank(placements, traits, TraitThreshold, filtered, TopCount);
    r := Success(ranked);
  }

  /** A match without the player fails the whole analysis; it is never skipped. */
  lemma AbsentPlayerFails(matches: seq<RawMatch>, puuid: string, i: nat)
    requires i < |matches| && matches[i].participants.Some?
    requires forall k :: 0 <= k < |matches[i].participants.value| ==> matches[i].participants.value[k].puuid.Some?
    requires forall k :: 0 <= k < |matches[i].participants.value| ==> matches[i].participants.value[k].puuid != Some(puuid)
    ensures !AllRead(matches, puuid)
  {
    LocateInlineAbsent(matches[i].participants.value, puuid, i);
    assert ReadInline(matches[i], puuid, i).Failure?;
  }
}

=== FILE: unit_analysis.dfy ===
/**
 * The unit report: one row per fielded unit with three item slots, then
 * either the report on one named unit (its best item combinations and the
 * best non-native traits it played beside) or the reports on the most
 * fielded units.
 */
module UnitAnalysis {
  import opened Wrappers
  import opened Records
  import opened MatchJson
  import opened Normaliser
  import Counting
  import opened Ranking
  import opened Text
  import opened Combos
  import opened Grouping
  import opened GroupRanking
  import opened CDragon

  /** Item slots per unit row. */
  const ItemSlots: nat := 3

  /** A combination must appear in at least this many rows to be reported. */
  const MinComboGames: nat := 3

  /** The prefix stripped from trait names before they are compared and grouped. */
  const TraitPrefix: string := "TFT14_"

  /** `analyze_unit`'s defaults, used for a named unit. */
  const DefaultTopN: nat := 10
  const DefaultMinGames: nat := 3

  /** The arguments the summary passes for each of the most fielded units. */
  const SummaryTopN: nat := 5
  const SummaryMinGames: nat := 2

  /** How many of the most fielded units the summary looks at, and how often one must be fielded. */
  const MaxTopUnits: nat := 10
  const MinUnitGames: nat := 3

  /** One row of `unit_df`: a fielded unit, its item slots, the match's placement and active traits. */
  datatype UnitRow = UnitRow(unit: string, slots: seq<Option<string>>, placement: int, traits: seq<string>)

  /** `item_list[:3] + [None] * (3 - len(item_list))`. */
  function Slots(items: seq<string>): (r: seq<Option<string>>)
    ensures |r| == ItemSlots
    ensures forall i :: 0 <= i < ItemSlots ==> r[i] == if i < |items| then Some(items[i]) else None
  {
    var kept := if |items| <= ItemSlots then items else items[..ItemSlots];
    seq(|kept|, i requires 0 <= i < |kept| => Some(kept[i])) + seq(ItemSlots - |kept|, _ => None)
  }

  /** `[i for i in slots if i]`: the filled slots, an empty name counting as empty. */
  function PresentItems(slots: seq<Option<string>>): (r: seq<string>)
    ensures |r| <= |slots|
    ensures forall x :: x in r <==> x != "" && Some(x) in slots
  {
    if slots == [] then []
    else
      var n := |slots| - 1;
      assert slots == slots[..n] + [slots[n]];
      PresentItems(slots[..n]) + (if slots[n].Some? && slots[n].value != "" then [slots[n].value] else [])
  }

  /** The filled slots are kept in slot order. */
  lemma {:induction false} PresentItemsInOrder(slots: seq<Option<string>>)
    ensures Counting.Sublist(AsSlots(PresentItems(slots)), slots)
  {
    if slots != [] {
      var n := |slots| - 1;
      var front := PresentItems(slots[..n]);
      PresentItemsInOrder(slots[..n]);
      if slots[n].Some? && slots[n].value != "" {
        assert PresentItems(slots) == front + [slots[n].value];
        assert AsSlots(front + [slots[n].value]) == AsSlots(front) + [slots[n]];
        assert (AsSlots(front) + [slots[n]])[..|front|] == AsSlots(front);
        assert slots[..n] == slots[..|slots| - 1];
      } else {
        assert PresentItems(slots) == front;
        if front != [] {
          assert front[|front| - 1] in front;
          assert AsSlots(front)[|front| - 1] != slots[n];
        }
      }
    }
  }

  /** Each filled slot is kept once: a name occurs as often as the slots holding it. */
  lemma {:induction false} PresentItemsCount(slots: seq<Option<string>>)
    ensures forall x :: multiset(PresentItems(slots))[x] == if x == "" then 0 else multiset(slots)[Some(x)]
  {
    if slots != [] {
      var n := |slots| - 1;
      var front := PresentItems(slots[..n]);
      PresentItemsCount(slots[..n]);
      assert slots == slots[..n] + [slots[n]];
      assert multiset(slots) == multiset(slots[..n]) + multiset{slots[n]};
      var last := if slots[n].Some? && slots[n].value != "" then [slots[n].value] else [];
      assert PresentItems(slots) == front + last;
      assert multiset(PresentItems(slots)) == multiset(front) + multiset(last);
    }
  }

  /** Item names put back into slots. */
  function AsSlots(items: seq<string>): (r: seq<Option<string>>)
    ensures |r| == |items| && forall i :: 0 <= i < |items| ==> r[i] == Some(items[i])
  {
    seq(|items|, i requires 0 <= i < |items| => Some(items[i]))
  }

  /** The rows for units `units` holding `items`, all of one match. */
  function ZipRows(units: seq<string>, items: seq<seq<string>>, placement: int, traits: seq<string>): seq<UnitRow>
    requires |units| == |items|
  {
    if units == [] then []
    else
      var n := |units| - 1;
      ZipRows(units[..n], items[..n], placement, traits) + [UnitRow(units[n], Slots(items[n]), placement, traits)]
  }

  /** Row `k` pairs the `k`-th unit with the `k`-th item list, padded to three slots. */
  lemma {:induction false} ZipRowsAt(units: seq<string>, items: seq<seq<string>>, placement: int, traits: seq<string>)
    requires |units| == |items|
    ensures |ZipRows(units, items, placement, traits)| == |units|
    ensures forall k :: 0 <= k < |units| ==>
              ZipRows(units, items, placement, traits)[k] == UnitRow(units[k], Slots(items[k]), placement, traits)
  {
    if units != [] {
      var n := |units| - 1;
      ZipRowsAt(units[..n], items[..n], placement, traits);
    }
  }

  /** `zip(units, items_per_unit)` of one match: the shorter list decides. */
  function ExplodeRecord(rec: MatchRecord): seq<UnitRow>
  {
    var m := if |rec.units| <= |rec.items| then |rec.units| else |rec.items|;
    ZipRows(rec.units[..m], rec.items[..m], rec.placement, rec.traits)
  }

  /** `unit_rows` of the whole frame, match by match. */
  function ExplodeAll(records: seq<MatchRecord>): seq<UnitRow>
  {
    if records == [] then []
    else
      var n := |records| - 1;
      ExplodeAll(records[..n]) + ExplodeRecord(records[n])
  }

  /** The number of units fielded over the matches. */
  function TotalUnits(records: seq<MatchRecord>): nat
  {
    if records == [] then 0 else TotalUnits(records[..|records| - 1]) + |records[|records| - 1].units|
  }

  /** When every unit has its item list, `unit_df` has one row per fielded unit. */
  lemma {:induction false} ExplodeSize(records: seq<MatchRecord>)
    requires forall i :: 0 <= i < |records| ==> |records[i].units| == |records[i].items|
    ensures |ExplodeAll(records)| == TotalUnits(records)
  {
    if records != [] {
      var n := |records| - 1;
      var rec := records[n];
      ExplodeSize(records[..n]);
      assert rec.units[..|rec.units|] == rec.units && rec.items[..|rec.items|] == rec.items;
      ZipRowsAt(rec.units, rec.items, rec.placement, rec.traits);
    }
  }

  /** The loop that builds `unit_rows`. */
  method Explode(records: seq<MatchRecord>) returns (rows: seq<UnitRow>)
    ensures rows == ExplodeAll(records)
  {
    rows := [];
    for i := 0 to |records|
      invariant rows == ExplodeAll(records[..i])
    {
      assert records[..i + 1][..i] == records[..i];
      var rec := records[i];
      var m := if |rec.units| <= |rec.items| then |rec.units| else |rec.items|;
      ghost var start := rows;
      for k := 0 to m
        invariant rows == start + ZipRows(rec.units[..k], rec.items[..k], rec.placement, rec.traits)
      {
        assert rec.units[..k + 1][..k] == rec.units[..k];
        assert rec.items[..k + 1][..k] == rec.items[..k];
        rows := rows + [UnitRow(rec.units[k], Slots(rec.items[k]), rec.placement, rec.traits)];
      }
    }
    assert records[..|records|] == records;
  }

  /** `unit_df[unit_df['unit'] == unit]`, order kept. */
  function RowsOf(rows: seq<UnitRow>, unit: string): (r: seq<UnitRow>)
    ensures |r| <= |rows|
  {
    if rows == [] then []
    else
      var n := |rows| - 1;
      RowsOf(rows[..n], unit) + (if rows[n].unit == unit then [rows[n]] else [])
  }

  /**
   * The filter keeps exactly the rows of the unit, in their order, each as
   * often as it occurs.
   */
  lemma {:induction false} RowsOfMembers(rows: seq<UnitRow>, unit: string)
    ensures forall x :: x in RowsOf(rows, unit) <==> x in rows && x.unit == unit
    ensures Counting.Sublist(RowsOf(rows, unit), rows)
    ensures forall x :: multiset(RowsOf(rows, unit))[x] == if x.unit == unit then multiset(rows)[x] else 0
  {
    RowsOfInOrder(rows, unit);
    RowsOfCount(rows, unit);
    forall x ensures x in RowsOf(rows, unit) <==> x in rows && x.unit == unit {
      assert x in RowsOf(rows, unit) <==> multiset(RowsOf(rows, unit))[x] > 0;
      assert x in rows <==> multiset(rows)[x] > 0;
    }
  }

  lemma {:induction false} RowsOfInOrder(rows: seq<UnitRow>, unit: string)
    ensures Counting.Sublist(RowsOf(rows, unit), rows)
  {
    if rows != [] {
      var n := |rows| - 1;
      var front := RowsOf(rows[..n], unit);
      RowsOfInOrder(rows[..n], unit);
      if rows[n].unit == unit {
        var r := front + [rows[n]];
        assert RowsOf(rows, unit) == r;
        assert r[..|r| - 1] == front && r[|r| - 1] == rows[n];
      } else {
        assert RowsOf(rows, unit) == front;
        if front != [] {
          var last := front[|front| - 1];
          RowsOfCount(rows[..n], unit);
          assert last in multiset(front);
          assert last.unit == unit;
        }
      }
    }
  }

  lemma {:induction false} RowsOfCount(rows: seq<UnitRow>, unit: string)
    ensures forall x :: multiset(RowsOf(rows, unit))[x] == if x.unit == unit then multiset(rows)[x] else 0
  {
    if rows != [] {
      var n := |rows| - 1;
      RowsOfCount(rows[..n], unit);
      assert rows == rows[..n] + [rows[n]];
      assert multiset(rows) == multiset(rows[..n]) + multiset{rows[n]};
    }
  }

  lemma {:induction false} RowsOfAppend(a: seq<UnitRow>, b: seq<UnitRow>, unit: string)
    ensures RowsOf(a + b, unit) == RowsOf(a, unit) + RowsOf(b, unit)
  {
    if b == [] {
      assert a + b == a;
    } else {
      var n := |b| - 1;
      var last := if b[n].unit == unit then [b[n]] else [];
      RowsOfAppend(a, b[..n], unit);
      assert (a + b)[..|a + b| - 1] == a + b[..n];
      assert (a + b)[|a + b| - 1] == b[n];
      calc {
        RowsOf(a + b, unit);
        RowsOf(a + b[..n], unit) + last;
        (RowsOf(a, unit) + RowsOf(b[..n], unit)) + last;
        RowsOf(a, unit) + (RowsOf(b[..n], unit) + last);
        RowsOf(a, unit) + RowsOf(b, unit);
      }
    }
  }

  lemma {:induction false} ZipRowsGames(units: seq<string>, items: seq<seq<string>>, placement: int,
                                        traits: seq<string>, unit: string)
    requires |units| == |items|
    ensures |RowsOf(ZipRows(units, items, placement, traits), unit)| == Counting.Count(units, unit)
  {
    if units != [] {
      var n := |units| - 1;
      ZipRowsGames(units[..n], items[..n], placement, traits, unit);
      var front := ZipRows(units[..n], items[..n], placement, traits);
      var last := UnitRow(units[n], Slots(items[n]), placement, traits);
      assert (front + [last])[..|front|] == front;
    }
  }

  /** The unit lists of the frame's matches. */
  function UnitLists(records: seq<MatchRecord>): (r: seq<seq<string>>)
    ensures |r| == |records| && forall i :: 0 <= i < |records| ==> r[i] == records[i].units
  {
    seq(|records|, i requires 0 <= i < |records| => records[i].units)
  }

  /**
   * When every unit has its item list, a unit has one row per time it was
   * fielded: its games are its raw appearances over the matches.
   */
  lemma {:induction false} UnitGames(records: seq<MatchRecord>, unit: string)
    requires forall i :: 0 <= i < |records| ==> |records[i].units| == |records[i].items|
    ensures |RowsOf(ExplodeAll(records), unit)| == Counting.Occurrences(UnitLists(records), unit)
  {
    if records != [] {
      var n := |records| - 1;
      var rec := records[n];
      UnitGames(records[..n], unit);
      RowsOfAppend(ExplodeAll(records[..n]), ExplodeRecord(rec), unit);
      assert rec.units[..|rec.units|] == rec.units && rec.items[..|rec.items|] == rec.items;
      ZipRowsGames(rec.units, rec.items, rec.placement, rec.traits, unit);
      assert UnitLists(records)[..n] == UnitLists(records[..n]);
    }
  }

  // ---- Item combinations ----

  /** Every key paired with the placement of its row. */
  function Tagged(keys: seq<string>, placement: int): seq<Sample>
  {
    seq(|keys|, i requires 0 <= i < |keys| => Sample(keys[i], placement))
  }

  /** The `item_combo_rows` of one unit row. */
  function RowComboSamples(row: UnitRow): seq<Sample>
  {
    Tagged(ComboKeys(PresentItems(row.slots)), row.placement)
  }

  /** `item_combo_rows` of the unit's rows. */
  function ComboSamples(df: seq<UnitRow>): seq<Sample>
  {
    if df == [] then []
    else
      var n := |df| - 1;
      ComboSamples(df[..n]) + RowComboSamples(df[n])
  }

  lemma TaggedAppend(a: seq<string>, b: seq<string>, placement: int)
    ensures Tagged(a + b, placement) == Tagged(a, placement) + Tagged(b, placement)
  {
  }

  /** The loops that build `item_combo_rows`, row by row. */
  method CollectCombos(df: seq<UnitRow>) returns (samples: seq<Sample>)
    ensures samples == ComboSamples(df)
  {
    samples := [];
    for i := 0 to |df|
      invariant samples == ComboSamples(df[..i])
    {
      assert df[..i + 1][..i] == df[..i];
      var rowSamples := CollectRowCombos(df[i]);
      samples := samples + rowSamples;
    }
    assert df[..|df|] == df;
  }

  /** The body of the row loop: for each size, every combination of the sorted filled items. */
  method CollectRowCombos(row: UnitRow) returns (samples: seq<Sample>)
    ensures samples == RowComboSamples(row)
  {
    var items := PresentItems(row.slots);
    var sorted := SortStrings(items);
    samples := [];
    for r := 1 to |items| + 1
      invariant samples == Tagged(ComboKeysUpTo(sorted, r - 1), row.placement)
    {
      var combos := Combinations(sorted, r);
      var sized := CollectSized(combos, row.placement);
      TaggedAppend(ComboKeysUpTo(sorted, r - 1), JoinEach(combos), row.placement);
      samples := samples + sized;
    }
  }

  /** The innermost loop: one row per combination of one size. */
  method CollectSized(combos: seq<seq<string>>, placement: int) returns (samples: seq<Sample>)
    ensures samples == Tagged(JoinEach(combos), placement)
  {
    samples := [];
    for c := 0 to |combos|
      invariant samples == Tagged(JoinEach(combos[..c]), placement)
    {
      assert JoinEach(combos[..c + 1]) == JoinEach(combos[..c]) + [Join(combos[c], " | ")];
      samples := samples + [Sample(Join(combos[c], " | "), placement)];
    }
    assert combos[..|combos|] == combos;
  }

  /** A row's filled slots number at most three. */
  lemma PresentItemsBound(row: UnitRow)
    requires |row.slots| == ItemSlots
    ensures |PresentItems(row.slots)| <= ItemSlots
  {
  }

  /**
   * Every combination row comes from one unit row: its placement is that
   * row's, its key one to three of that row's filled items, sorted and
   * joined by `' | '`.
   */
  lemma {:induction false} ComboSampleOrigin(df: seq<UnitRow>, s: Sample)
    requires forall i :: 0 <= i < |df| ==> |df[i].slots| == ItemSlots
    requires s in ComboSamples(df)
    ensures exists i :: 0 <= i < |df| && s.placement == df[i].placement && s.key in ComboKeys(PresentItems(df[i].slots))
  {
    var n := |df| - 1;
    if s in ComboSamples(df[..n]) {
      ComboSampleOrigin(df[..n], s);
      var i :| 0 <= i < n && s.placement == df[..n][i].placement && s.key in ComboKeys(PresentItems(df[..n][i].slots));
      assert df[..n][i] == df[i];
    } else {
      var keys := ComboKeys(PresentItems(df[n].slots));
      var j :| 0 <= j < |keys| && RowComboSamples(df[n])[j] == s;
      assert s.key == keys[j];
    }
  }

  /** A row with `k` filled slots adds `2^k - 1` combination rows, so at most seven. */
  lemma RowComboCount(row: UnitRow)
    requires |row.slots| == ItemSlots
    ensures |RowComboSamples(row)| == Pow2(|PresentItems(row.slots)|) - 1 <= 7
  {
    ComboKeysCount(PresentItems(row.slots));
    PresentItemsBound(row);
    Pow2AtMostThree(|PresentItems(row.slots)|);
  }

  lemma Pow2AtMostThree(k: nat)
    requires k <= 3
    ensures Pow2(k) <= 8
  {
    assert Pow2(1) == 2 && Pow2(2) == 4 && Pow2(3) == 8;
  }

  // ---- Synergy traits ----

  /** `str.replace('TFT14_', '')`. */
  function Normalise(t: string): string
  {
    RemoveAll(t, TraitPrefix)
  }

  /**
   * The exploded rows of one unit row, trait names normalised, native
   * traits dropped; a row without traits adds nothing (its one exploded row
   * has no key and `groupby` drops it).
   */
  function RowTraitSamples(traits: seq<string>, placement: int, native: seq<string>): (r: seq<Sample>)
    ensures forall s :: s in r ==>
              s.placement == placement && s.key !in native && exists t :: t in traits && s.key == Normalise(t)
    ensures forall t :: t in traits && Normalise(t) !in native ==> Sample(Normalise(t), placement) in r
  {
    if traits == [] then []
    else
      var n := |traits| - 1;
      assert traits == traits[..n] + [traits[n]];
      var key := Normalise(traits[n]);
      RowTraitSamples(traits[..n], placement, native) + (if key in native then [] else [Sample(key, placement)])
  }

  /** A set-14 trait name loses its prefix and nothing else. */
  lemma NormaliseStripsPrefix(t: string)
    requires !Occurs(t, TraitPrefix)
    ensures Normalise(TraitPrefix + t) == t
  {
    RemoveAllPrefix(t, TraitPrefix);
    RemoveAllAbsent(t, TraitPrefix);
  }

  /** How many of `traits` normalise to `k`. */
  function NormalisedCount(traits: seq<string>, k: string): nat
  {
    if traits == [] then 0
    else NormalisedCount(traits[..|traits| - 1], k) + (if Normalise(traits[|traits| - 1]) == k then 1 else 0)
  }

  /**
   * One exploded row per trait occurrence: a non-native key is filed as
   * often as the traits normalising to it, a native key never.
   */
  lemma {:induction false} RowTraitSamplesCount(traits: seq<string>, placement: int, native: seq<string>, k: string)
    ensures CountOf(RowTraitSamples(traits, placement, native), k) == if k in native then 0 else NormalisedCount(traits, k)
  {
    if traits != [] {
      var n := |traits| - 1;
      RowTraitSamplesCount(traits[..n], placement, native, k);
      var front := RowTraitSamples(traits[..n], placement, native);
      var key := Normalise(traits[n]);
      if key !in native {
        assert RowTraitSamples(traits, placement, native) == front + [Sample(key, placement)];
        CountOfSnoc(front, Sample(key, placement), k);
      } else {
        assert RowTraitSamples(traits, placement, native) == front;
      }
    }
  }

  lemma CountOfSnoc(front: seq<Sample>, s: Sample, k: string)
    ensures CountOf(front + [s], k) == CountOf(front, k) + (if s.key == k then 1 else 0)
  {
    assert (front + [s])[..|front|] == front;
  }

  /** The trait rows left after exploding, normalising and dropping native traits. */
  function TraitSamples(df: seq<UnitRow>, native: seq<string>): (r: seq<Sample>)
    ensures forall s :: s in r ==> s.key !in native
  {
    if df == [] then []
    else
      var n := |df| - 1;
      TraitSamples(df[..n], native) + RowTraitSamples(df[n].traits, df[n].placement, native)
  }

  /** A key with rows has a row. */
  lemma {:induction false} CountOfPositive(samples: seq<Sample>, k: string)
    requires CountOf(samples, k) > 0
    ensures exists s :: s in samples && s.key == k
  {
    var n := |samples| - 1;
    if samples[n].key != k {
      CountOfPositive(samples[..n], k);
      var s :| s in samples[..n] && s.key == k;
      assert s in samples;
    }
  }

  // ---- Reports ----

  /** `analyze_unit`'s result: the error dictionary, or the report. */
  datatype Analysis =
    | NotEnoughGames(unit: string, found: nat)
    | Report(unit: string, gamesAnalyzed: nat, combos: seq<Group>, synergy: seq<Group>, native: seq<string>)

  /**
   * `a` is the analysis of `unit` over `rows`: too few rows give the error;
   * otherwise the combination list holds the `topN` lowest mean placements
   * among combinations seen at least three times, and the synergy list the
   * `topN` lowest among the non-native traits.
   */
  ghost predicate IsAnalysis(a: Analysis, rows: seq<UnitRow>, unit: string, cd: Json, topN: nat, minGames: nat)
  {
    var df := RowsOf(rows, unit);
    if |df| < minGames then a == NotEnoughGames(unit, |df|)
    else
      && a.Report? && a.unit == unit && a.gamesAnalyzed == |df|
      && a.native == NativeTraits(cd, unit)
      && IsTopGroups(a.combos, ComboSamples(df), MinComboGames, topN, NegMean)
      && IsTopGroups(a.synergy, TraitSamples(df, a.native), 1, topN, NegMean)
  }

  /** `analyze_unit(unit_df, unit, cd_data, top_n, min_games)`. */
  method AnalyzeUnit(rows: seq<UnitRow>, unit: string, cd: Json, topN: nat, minGames: nat) returns (a: Analysis)
    ensures IsAnalysis(a, rows, unit, cd, topN, minGames)
    ensures a.Report? ==> forall g :: g in a.synergy ==> g.key !in a.native
  {
    var df := RowsOf(rows, unit);
    if |df| < minGames {
      return NotEnoughGames(unit, |df|);
    }
    var comboSamples := CollectCombos(df);
    var combos: seq<Group> := [];
    if |comboSamples| > 0 {
      combos := TakeBest(AtLeast(GroupBy(comboSamples), MinComboGames), NegMean, topN);
    }
    TakeBestGroups(comboSamples, MinComboGames, topN, NegMean);
    var native := NativeTraits(cd, unit);
    var traitSamples := TraitSamples(df, native);
    var synergy: seq<Group> := [];
    if |traitSamples| > 0 {
      synergy := TakeBest(GroupBy(traitSamples), NegMean, topN);
    }
    GroupByCorrect(traitSamples);
    AtLeastAll(GroupBy(traitSamples), 1);
    TakeBestGroups(traitSamples, 1, topN, NegMean);
    forall g | g in synergy ensures g.key !in native {
      CountOfPositive(traitSamples, g.key);
    }
    a := Report(unit, |df|, combos, synergy, native);
  }

  /** One entry of `top_units`: a report and the number of times its unit was fielded. */
  datatype TopUnit = TopUnit(report: Analysis, totalGames: nat)

  /** The `unit` column, each row tagged with its placement. */
  function UnitSamples(rows: seq<UnitRow>): seq<Sample>
  {
    seq(|rows|, i requires 0 <= i < |rows| => Sample(rows[i].unit, rows[i].placement))
  }

  /** `value_counts()` counts a unit's rows. */
  lemma {:induction false} UnitSampleCount(rows: seq<UnitRow>, unit: string)
    ensures CountOf(UnitSamples(rows), unit) == |RowsOf(rows, unit)|
  {
    if rows != [] {
      var n := |rows| - 1;
      UnitSampleCount(rows[..n], unit);
      assert UnitSamples(rows)[..n] == UnitSamples(rows[..n]);
    }
  }

  /** `unit_df['unit'].value_counts().head(10)`. */
  function MostFielded(rows: seq<UnitRow>): seq<Group>
  {
    TakeBest(GroupBy(UnitSamples(rows)), Frequency, MaxTopUnits)
  }

  /**
   * The ten most fielded units, most fielded first, each with its number
   * of rows; a unit left out is fielded no more often than one kept.
   */
  lemma MostFieldedCorrect(rows: seq<UnitRow>)
    ensures IsTopGroups(MostFielded(rows), UnitSamples(rows), 1, MaxTopUnits, Frequency)
    ensures forall g :: g in MostFielded(rows) ==> g.count == |RowsOf(rows, g.key)| > 0
  {
    var samples := UnitSamples(rows);
    GroupByCorrect(samples);
    AtLeastAll(GroupBy(samples), 1);
    TakeBestGroups(samples, 1, MaxTopUnits, Frequency);
    forall g | g in MostFielded(rows) ensures g.count == |RowsOf(rows, g.key)| {
      UnitSampleCount(rows, g.key);
    }
  }

  lemma AtLeastStep(groups: seq<Group>, i: nat, minCount: nat)
    requires i < |groups|
    ensures AtLeast(groups[..i + 1], minCount)
            == AtLeast(groups[..i], minCount) + (if groups[i].count >= minCount then [groups[i]] else [])
  {
    assert groups[..i + 1][..i] == groups[..i];
  }

  lemma FieldedCount(rows: seq<UnitRow>, g: Group)
    requires g in MostFielded(rows)
    ensures g.count == |RowsOf(rows, g.key)|
  {
    MostFieldedCorrect(rows);
  }

  /**
   * `top` reports on the units of `kept`, in order: each entry is a report
   * on that unit with top five and minimum two, and its number of rows.
   */
  ghost predicate Reports(top: seq<TopUnit>, kept: seq<Group>, rows: seq<UnitRow>, cd: Json)
  {
    && |top| == |kept|
    && forall j :: 0 <= j < |top| ==>
         && top[j].totalGames == kept[j].count
         && top[j].report.Report?
         && top[j].report.unit == kept[j].key
         && IsAnalysis(top[j].report, rows, kept[j].key, cd, SummaryTopN, SummaryMinGames)
  }

  /**
   * `top` is the summary's `top_units`: for each of the most fielded units
   * fielded at least three times, in that order, its analysis and its
   * number of rows.
   */
  ghost predicate IsSelection(top: seq<TopUnit>, rows: seq<UnitRow>, cd: Json)
  {
    Reports(top, AtLeast(MostFielded(rows), MinUnitGames), rows, cd)
  }

  lemma ReportsAppend(top: seq<TopUnit>, kept: seq<Group>, rows: seq<UnitRow>, cd: Json, t: TopUnit, g: Group)
    requires Reports(top, kept, rows, cd)
    requires t.totalGames == g.count && t.report.Report? && t.report.unit == g.key
    requires IsAnalysis(t.report, rows, g.key, cd, SummaryTopN, SummaryMinGames)
    ensures Reports(top + [t], kept + [g], rows, cd)
  {
    forall j | 0 <= j < |top| + 1
      ensures (top + [t])[j].totalGames == (kept + [g])[j].count
      ensures (top + [t])[j].report.Report? && (top + [t])[j].report.unit == (kept + [g])[j].key
      ensures IsAnalysis((top + [t])[j].report, rows, (kept + [g])[j].key, cd, SummaryTopN, SummaryMinGames)
    {
      if j < |top| {
        assert (top + [t])[j] == top[j] && (kept + [g])[j] == kept[j];
      }
    }
  }

  /** A unit fielded at least three times gets a report, which extends the reports so far. */
  lemma ReportStep(top: seq<TopUnit>, counts: seq<Group>, i: nat, rows: seq<UnitRow>, cd: Json, a: Analysis)
    requires i < |counts| && counts[i].count == |RowsOf(rows, counts[i].key)| >= MinUnitGames
    requires Reports(top, AtLeast(counts[..i], MinUnitGames), rows, cd)
    requires IsAnalysis(a, rows, counts[i].key, cd, SummaryTopN, SummaryMinGames)
    ensures a.Report?
    ensures Reports(top + [TopUnit(a, counts[i].count)], AtLeast(counts[..i + 1], MinUnitGames), rows, cd)
  {
    AtLeastStep(counts, i, MinUnitGames);
    ReportsAppend(top, AtLeast(counts[..i], MinUnitGames), rows, cd, TopUnit(a, counts[i].count), counts[i]);
  }

  /** A unit fielded fewer than three times is passed over. */
  lemma SkipStep(top: seq<TopUnit>, counts: seq<Group>, i: nat, rows: seq<UnitRow>, cd: Json)
    requires i < |counts| && counts[i].count < MinUnitGames
    requires Reports(top, AtLeast(counts[..i], MinUnitGames), rows, cd)
    ensures Reports(top, AtLeast(counts[..i + 1], MinUnitGames), rows, cd)
  {
    AtLeastStep(counts, i, MinUnitGames);
  }

  /** The summary: analyse the most fielded units. */
  method SelectTopUnits(rows: seq<UnitRow>, cd: Json) returns (top: seq<TopUnit>)
    ensures IsSelection(top, rows, cd)
    ensures |top| <= MaxTopUnits
  {
    var counts := MostFielded(rows);
    forall g | g in counts ensures g.count == |RowsOf(rows, g.key)| {
      FieldedCount(rows, g);
    }
    top := ReportOnEach(rows, cd, counts);
    top := top[..if |top| < MaxTopUnits then |top| else MaxTopUnits];
  }

  /** The loop over `unit_counts`: every unit with three rows or more yields a report. */
  method ReportOnEach(rows: seq<UnitRow>, cd: Json, counts: seq<Group>) returns (top: seq<TopUnit>)
    requires forall g :: g in counts ==> g.count == |RowsOf(rows, g.key)|
    ensures Reports(top, AtLeast(counts, MinUnitGames), rows, cd)
  {
    top := [];
    for i := 0 to |counts|
      invariant Reports(top, AtLeast(counts[..i], MinUnitGames), rows, cd)
    {
      assert counts[i] in counts;
      top := ReportOnUnit(rows, cd, counts, i, top);
    }
    assert counts[..|counts|] == counts;
  }

  /** One pass of that loop: analyse the `i`-th unit when it has three rows or more. */
  method ReportOnUnit(rows: seq<UnitRow>, cd: Json, counts: seq<Group>, i: nat, top: seq<TopUnit>)
    returns (top': seq<TopUnit>)
    requires i < |counts| && counts[i].count == |RowsOf(rows, counts[i].key)|
    requires Reports(top, AtLeast(counts[..i], MinUnitGames), rows, cd)
    ensures Reports(top', AtLeast(counts[..i + 1], MinUnitGames), rows, cd)
  {
    top' := top;
    if counts[i].count < MinUnitGames {
      SkipStep(top, counts, i, rows, cd);
    } else {
      var analysis := AnalyzeUnit(rows, counts[i].key, cd, SummaryTopN, SummaryMinGames);
      ReportStep(top, counts, i, rows, cd, analysis);
      if analysis.Report? {
        top' := top + [TopUnit(analysis, counts[i].count)];
      } else {
        // the unit has at least three rows, more than the minimum of two
        assert false;
      }
    }
  }

  /** What `run_analysis` returns: one unit's analysis, or the summary. */
  datatype UnitResult =
    | Single(analysis: Analysis)
    | Summary(totalGames: nat, totalUnitInstances: nat, topUnits: seq<TopUnit>)

  /** A non-empty unit name selects single-unit mode (`if unit_name:`). */
  predicate Named(unitName: Option<string>)
  {
    unitName.Some? && unitName.value != ""
  }

  /**
   * `run_analysis(puuid, unit_name)`: fails as the frame loading does, then
   * when no unit was fielded at all (the `unit` column does not exist);
   * otherwise analyses the named unit with the defaults, or summarises the
   * most fielded units.
   */
  method Run(fetched: seq<Option<RawMatch>>, puuid: string, unitName: Option<string>, cd: Json)
    returns (r: Result<UnitResult, Failure>)
    ensures fetched == [] ==> r == Failure(NoMatchIds)
    ensures fetched != [] && |ReadAll(fetched, puuid)| < MinMatches
            ==> r == Failure(InsufficientData(|ReadAll(fetched, puuid)|))
    ensures fetched != [] && |ReadAll(fetched, puuid)| >= MinMatches
            && |OfSet(ReadAll(fetched, puuid), TftSet)| < MinMatches
            ==> r == Failure(InsufficientSetData(|OfSet(ReadAll(fetched, puuid), TftSet)|))
    ensures Loads(fetched, puuid) ==> (r == Failure(NoUnitRows) <==> ExplodeAll(OfSet(ReadAll(fetched, puuid), TftSet)) == [])
    ensures r.Success? <==> Loads(fetched, puuid) && ExplodeAll(OfSet(ReadAll(fetched, puuid), TftSet)) != []
    ensures r.Success? ==>
      var frame := OfSet(ReadAll(fetched, puuid), TftSet);
      var rows := ExplodeAll(frame);
      && |frame| >= MinMatches && rows != []
      && (Named(unitName) ==>
            r.value.Single? && IsAnalysis(r.value.analysis, rows, unitName.value, cd, DefaultTopN, DefaultMinGames))
      && (!Named(unitName) ==>
            && r.value.Summary?
            && r.value.totalGames == |frame|
            && r.value.totalUnitInstances == |rows| == TotalUnits(frame)
            && IsSelection(r.value.topUnits, rows, cd))
  {
    var loaded := Load(fetched, puuid);
    if loaded.Failure? {
      return Failure(loaded.error);
    }
    ReadAllUnitsHaveItems(fetched, puuid);
    r := ReportOnFrame(loaded.value, unitName, cd);
  }

  /** What `run_analysis` does with the loaded frame. */
  method ReportOnFrame(frame: seq<MatchRecord>, unitName: Option<string>, cd: Json)
    returns (r: Result<UnitResult, Failure>)
    requires forall rec :: rec in frame ==> |rec.units| == |rec.items|
    ensures r.Failure? ==> r.error == NoUnitRows
    ensures r.Success? <==> ExplodeAll(frame) != []
    ensures r.Success? ==>
      var rows := ExplodeAll(frame);
      && (Named(unitName) ==>
            r.value.Single? && IsAnalysis(r.value.analysis, rows, unitName.value, cd, DefaultTopN, DefaultMinGames))
      && (!Named(unitName) ==>
            && r.value.Summary?
            && r.value.totalGames == |frame|
            && r.value.totalUnitInstances == |rows| == TotalUnits(frame)
            && IsSelection(r.value.topUnits, rows, cd))
  {
    var rows := Explode(frame);
    ExplodeSize(frame);
    if rows == [] {
      return Failure(NoUnitRows);
    }
    if Named(unitName) {
      var analysis := AnalyzeUnit(rows, unitName.value, cd, DefaultTopN, DefaultMinGames);
      r := Success(Single(analysis));
    } else {
      var top := SelectTopUnits(rows, cd);
      r := Success(Summary(|frame|, |rows|, top));
    }
  }
}

=== FILE: wrappers.dfy ===
/** Failure-carrying results shared by every stage of the pipeline. */
module Wrappers {

  datatype Option<+T> = None | Some(value: T)

  datatype Result<+T, +E> = Success(value: T) | Failure(error: E)
}
